=== FILE: README.md ===
# henge, modelled in Dafny

henge is a content-addressed store for decomposable recursive unique
identifiers (DRUIDs). `Henge.insert` flattens an item into one string,
using the item's JSON schema: an object becomes its property values joined
by `\x1e` (chr 30), and an array becomes its element encodings joined by
tabs. The string is digested with a pluggable checksum and stored under
the digest, next to two metadata slots (`_item_type`, `_digest_version`).
`Henge.retrieve` splits a stored string on the same delimiters and zips
the fields back with the schema's property names. It follows the
properties a schema lists under `recursive` by retrieving the druids they
hold. The recursion limit `reclimit` is lowered by one only when a
collection is split, and expansion stops only at a limit of exactly 0. So
object references never lower it, and a collection read at limit 0 still
expands its pieces (see "## Findings"). Every reader that has such a defect
takes a `Revision` argument: `AsWritten` follows the code, and `Intended`
follows the evident intent.

The model covers four parts of the repository:

- `henge/henge.py`: `insert` with `safestr` and `build_attr_string`, `_henge_insert`, `retrieve` with `process_item`, `list_item_types` and `select_item_type`.
  - Module `HengeStore`, on top of `Delimited` (split/join, Python string order, `sorted`), `Values` (items, retrieved values, exceptions, `str()`, `dict(zip(..))`) and `Schemas` (schema trees).
- `docs/example.py`: `split_schema`. It compiles a nested schema into a registry of single-level schemas keyed by `henge_class`.
  - Module `SchemaCompiler`.
- `tests/interactive_tests.py`: `select_inherent_properties`. It splits an item into the inherent properties and the external ones.
  - Module `Inherent`.
- `build/lib/henge/deprecated.py`: the `_insert_flat` encoder, in its flexible mode (sorted key/value pairs) and its fixed mode (values in schema order), and the `retrieveOld` and `retrieve2` readers.
  - Module `Legacy`.

The database is a `map<string, string>` passed in and returned. Three collaborators are function-valued fields of the configuration, and nothing is assumed about them:
- the checksum function (md5 by default);
- `jsonschema.validate`;
- Python's rendering of lists and dicts inside `str()`.

Python exceptions are `Failure` values of a `Result`. A recursion the source does not bound carries a `fuel` depth bound. When the fuel runs out the model returns `OutOfFuel`, which is not a Python exception.

## Model

| member | source | states |
|---|---|---|
| Delimited.Split | henge/henge.py:74 | `str.split` on one character always gives at least one piece, and no piece contains the separator |
| Delimited.SplitWithout | henge/henge.py:65-68 | a string without the separator splits into itself alone |
| Delimited.SplitJoin | henge/henge.py:156-159 | splitting a join of one or more separator-free parts gives the parts back |
| Delimited.JoinSplit | henge/henge.py:91-96 | joining the pieces of a split gives the original string back |
| Delimited.JoinContains | henge/henge.py:65 | a join contains the separator exactly when it has two or more parts or some part contains it; so a one-property object encodes without `\x1e` |
| Delimited.JoinFreeOf | henge/henge.py:91 | a `\x1e`-join of tab-free fields holds no tab, so an object record is never mistaken for a collection |
| Delimited.InsertSorted | build/lib/henge/deprecated.py:211 | inserting into a strictly ascending list keeps it strictly ascending and adds exactly that string |
| Delimited.SortStrings | build/lib/henge/deprecated.py:211 | `sorted` of distinct keys is strictly ascending in Python's string order and holds exactly the input's strings |
| Delimited.StrictlySortedUnique | build/lib/henge/deprecated.py:211 | two strictly ascending lists with the same members are equal, so the flexible key order does not depend on the item's key order |
| Values.ToStr | henge/henge.py:149 | `str()` of a string is the string itself; `str()` of an int contains neither delimiter |
| Values.ZipKeys | henge/henge.py:75-78 | `dict(zip(ks, vs))` has exactly the keys paired up to the shorter list |
| Values.ZipLast | henge/henge.py:75-78 | in `dict(zip(ks, vs))` a key maps to the value paired with its last occurrence up to the shorter list |
| Values.ZipByName | henge/henge.py:78 | zipping names with values that depend only on the name gives the map from each name to its value, even with repeated names |
| Values.Evens | build/lib/henge/deprecated.py:38 | `xs[::2]` has ceil(n/2) elements, the i-th being `xs[2i]` |
| Values.Odds | build/lib/henge/deprecated.py:39 | `xs[1::2]` has floor(n/2) elements, the i-th being `xs[2i+1]` |
| HengeStore.ListedTypesAreInsertable | henge/henge.py:99-138 | `insert` with a type `list_item_types` does not list returns False and leaves the database alone; a listed type with an item the validator accepts never gets False |
| HengeStore.SelectItemType | henge/henge.py:106-121 | a type is selected if and only if it has a schema and the validator accepts the item against it |
| HengeStore.IterateStringRoundTrip | henge/henge.py:156 | iterating a string always succeeds, and joining the one-character strings it yields gives the string back |
| HengeStore.Encode | henge/henge.py:153-159 | `build_attr_string` succeeds exactly on the items encodable against the schema (an object always is; an array needs a list or string of encodable elements; a primitive never is); its failures are KeyError('properties') or TypeError |
| HengeStore.EncodeAll | henge/henge.py:156 | the element encodings of an array succeed exactly when every element encodes, and each equals that element's encoding |
| HengeStore.HengeInsert | henge/henge.py:181-190 | writes exactly `druid`, `druid_item_type` and `druid_digest_version`, with the payload, the type and the version ("md5" when the version is missing or empty); no other key changes |
| HengeStore.Insert | henge/henge.py:123-178 | an unknown item type or a rejected item returns False with the database unchanged; encoding fails only for a valid item whose schema cannot be encoded; a stored item returns `checksum(encoding)` and writes exactly its three keys |
| HengeStore.InsertIdempotent | henge/henge.py:173-190 | inserting the same item again returns the same reply and leaves the database as the first insert left it |
| HengeStore.ObjectEncodingFields | henge/henge.py:153-159 | an object's encoding splits back into one `safestr` per property in schema order; zipping the names with those fields gives each property's `safestr` |
| HengeStore.ArrayEncodingElements | henge/henge.py:155-156 | a non-empty list's encoding splits on tabs into the element encodings, when none of them holds a tab |
| HengeStore.Retrieve | henge/henge.py:58-96 | the only exceptions are KeyError, TypeError and UnboundLocalError (besides running out of fuel); a tab-containing payload gives a list with one entry per piece; otherwise a string comes back exactly when `raw` is set and the payload has no `\x1e`, and anything else is a dict |
| HengeStore.ProcessItem | henge/henge.py:64-89 | a string comes back exactly for a raw payload without `\x1e`, a dict otherwise; a `\x1e` payload succeeds only under an object schema or an array of objects, and its keys are among that schema's property names |
| HengeStore.ProcessItemKeys | henge/henge.py:69-89 | the dict read back from a `\x1e` payload has exactly the first min(#names, #fields) property names as keys, so a short payload leaves out the later names; expanding attributes keeps those keys |
| HengeStore.ExpandAttrs | henge/henge.py:82-88 | the loop over `recursive` succeeds only if every listed attribute is present, keeps the dict's keys and leaves unlisted attributes unchanged |
| HengeStore.ExpandAttrsSpec | henge/henge.py:82-88 | for distinct attributes, exactly the truthy listed ones are replaced, each by the retrieval of the druid it holds with the same limit; the rest are unchanged |
| HengeStore.RetrieveObjectLevel | henge/henge.py:69-89 | above the floor, a successful retrieve of an object record with `recursive` is the zipped dict in which every truthy listed attribute is retrieved with the limit unchanged |
| HengeStore.RetrieveSelfReference | henge/henge.py:82-88 | a record whose first recursive attribute holds its own druid is never resolved: above the floor every depth bound is exhausted, whatever the limit, in either revision |
| HengeStore.SelfReferenceExample | henge/henge.py:82-88 | a concrete self-referencing record read with `reclimit=5` exhausts every depth bound |
| HengeStore.ProcessPieces | henge/henge.py:96 | each tab-separated piece is processed with the same limit, one result per piece |
| HengeStore.RetrieveMissing | henge/henge.py:58-61 | a druid not in the database gives "Not found", whatever the schemas, limit or fuel |
| HengeStore.RetrievePlain | henge/henge.py:64-68 | a payload with neither delimiter is returned raw when `raw` is set, and otherwise becomes `{item_type: payload}`; a missing `_item_type` slot raises KeyError |
| HengeStore.RetrieveFlatObject | henge/henge.py:69-80 | an object payload is the zip of the property names with its `\x1e` fields; at the floor or without `recursive` nothing beyond the druid's own two keys is read |
| HengeStore.RetrieveFloor | henge/henge.py:79-96 | under the intended stop test, a retrieve at any limit at or below 0 reads only the druid's payload and `_item_type` slot and makes no nested retrieval, for a collection as for a single record |
| HengeStore.CollectionBelowFloor | henge/henge.py:79-96 | as written, a two-piece collection read at limit 0 replaces each piece's `next` by the retrieval of "d", and the same read on the druid's own keys with no depth fails; as intended the pieces come back unexpanded |
| HengeStore.RetrieveCollection | henge/henge.py:91-96 | a tab-containing payload gives a list of at least two pieces, each processed with the limit lowered by one |
| HengeStore.InsertThenRetrieve | henge/henge.py:147-190 | round trip: an object inserted under a schema with two or more properties is retrieved as `{k: safestr(item, k)}`, provided no field holds a delimiter and nothing is expanded |
| HengeStore.InsertThenRetrieveSingleProperty | henge/henge.py:64-68 | a one-property object is read back keyed by its item type, not by the property name |
| HengeStore.SelectedTypesPassInsertGates | henge/henge.py:106-171 | `insert` answers False exactly for the types `select_item_type` does not offer for the item (its Selectable types); for an offered type it raises or answers a druid |
| SchemaCompiler.FlattenProps | docs/example.py:54-56 | names are kept; object- or array-typed properties become `{'type': 'string'}`; other properties are unchanged |
| SchemaCompiler.ObjectCopy | docs/example.py:49-58 | an object's registered copy drops `henge_class`, keeps `recursive`, `inherent` and the property names, and is single level |
| SchemaCompiler.ArrayCopy | docs/example.py:67-78 | an array's registered copy drops `henge_class`, is single level, and has string items that carry `recursive` exactly when the array has a `recursive` key |
| SchemaCompiler.OwnEntry | docs/example.py:39-78 | the entry a node registers under its own class is single level |
| SchemaCompiler.SplitSchema | docs/example.py:36-83 | every registered entry is single level; a primitive root given a name is registered under that name alone |
| SchemaCompiler.SplitProps | docs/example.py:60-63 | the merged registrations of an object's properties are single level |
| SchemaCompiler.SplitSchemaKeys | docs/example.py:36-83 | the registry's keys are exactly the `henge_class` values in the tree, unless the root is a named primitive |
| SchemaCompiler.SplitPropsKeys | docs/example.py:60-63 | the keys merged from the properties are exactly the classes found below them |
| SchemaCompiler.SplitSchemaProvenance | docs/example.py:36-83 | each entry is the copy registered by some node of the tree carrying that key as its `henge_class` |
| SchemaCompiler.SplitPropsProvenance | docs/example.py:60-63 | the same provenance holds for the merged property registrations |
| SchemaCompiler.ObjectRegistersCopy | docs/example.py:48-63 | an object with class H registers its flattened copy under H, unless a descendant also registers H, whose entry then wins |
| SchemaCompiler.ArrayRegistersCopy | docs/example.py:65-82 | an array with class H registers its copy under H, unless its items also register H, whose entry then wins |
| SchemaCompiler.PropsLastWins | docs/example.py:60-63 | a class registered by property i and by no later property keeps property i's entry |
| Inherent.SelectInherent | tests/interactive_tests.py:88-99 | with no non-empty `inherent` list the item is returned whole with external None; otherwise it succeeds exactly when the listed keys are distinct and present, the inherent part holds exactly those keys, the external part the rest, values unchanged; when a split is declared, an item that is not a dict gives TypeError, and a dict that fails gives a KeyError naming a listed key |
| Legacy.Filter | build/lib/henge/deprecated.py:211 | keeps exactly the names that are keys of the item |
| Legacy.IncludedKeys | build/lib/henge/deprecated.py:211 | `keys_to_include` is strictly ascending and holds exactly the keys both the item and the schema have |
| Legacy.Interleave | build/lib/henge/deprecated.py:212 | alternating keys and values: the evens are the keys and the odds the values |
| Legacy.JoinPairs | build/lib/henge/deprecated.py:212 | joining the pairs gives the same string as joining the flat key/value list |
| Legacy.LegacyEncode | build/lib/henge/deprecated.py:200-224 | `build_attr_string` succeeds exactly on the items encodable in the chosen mode (a primitive needs a string, a flexible object a dict, an array a list or string of encodable elements); its failures are TypeError or AttributeError |
| Legacy.LegacyEncodeAll | build/lib/henge/deprecated.py:201-207 | the element encodings succeed exactly when every element encodes, and each equals that element's encoding |
| Legacy.FlexibleDecodesToZip | build/lib/henge/deprecated.py:37-40 | splitting a flexible encoding and zipping evens with odds pairs each included key with its value |
| Legacy.FlexibleRoundTrip | build/lib/henge/deprecated.py:209-212 | decoding a flexible encoding gives `{k: str(item[k])}` over the keys both item and schema have, provided none of those keys or values holds `\x1e` |
| Legacy.FixedRoundTrip | build/lib/henge/deprecated.py:214-217 | decoding a fixed encoding gives `{n: safestr(item, n)}` over the schema properties, provided no field holds `\x1e` |
| Legacy.FixedMatchesHengeEncoding | build/lib/henge/deprecated.py:200-217 | for objects and arrays of them, the fixed legacy encoding equals `henge.py`'s encoding |
| Legacy.FixedMatchesHengeEncodingAll | build/lib/henge/deprecated.py:203-207 | the same agreement for the elements of an array |
| Legacy.ModesAgreeWithoutObjects | build/lib/henge/deprecated.py:200-224 | the flexible and fixed modes give the same result for every schema that reaches no object |
| Legacy.ModesAgreeWithoutObjectsAll | build/lib/henge/deprecated.py:201-207 | the same agreement for the elements of an array |
| Legacy.DecodeEncodedObject | build/lib/henge/deprecated.py:208-217 | an object encoded in either mode decodes back to what was encoded |
| Legacy.RetrieveOld | build/lib/henge/deprecated.py:2-80 | a result has the shape of the druid's schema: a list for an array, a dict for an object, a string for a primitive; the corrected reading never raises UnboundLocalError |
| Legacy.ExpandOld | build/lib/henge/deprecated.py:54-60 | the attribute loop keeps the dict's keys and leaves unlisted attributes unchanged; the corrected reading never raises UnboundLocalError |
| Legacy.Retrieve2 | build/lib/henge/deprecated.py:89-187 | never raises UnboundLocalError; a success found the type slot, the henge for the type holding the druid, and the schema |
| Legacy.Reconstruct | build/lib/henge/deprecated.py:99-157 | an object gives a dict and an array a list with one entry per piece, or the unfinished placeholder; never UnboundLocalError |
| Legacy.Expand2 | build/lib/henge/deprecated.py:133-139 | success implies every listed attribute is present; the dict's keys are kept and unlisted attributes are unchanged; never UnboundLocalError |
| Legacy.ExpandOldRepeatedAttribute | build/lib/henge/deprecated.py:4-8 | an attribute listed twice whose first replacement is a list or dict makes the second pass raise NotFoundException with that value as the druid |
| Legacy.Expand2RepeatedAttribute | build/lib/henge/deprecated.py:165-169 | the same for `retrieve2`, when the replacement is a truthy list or dict |
| Legacy.RetrieveAllOld | build/lib/henge/deprecated.py:31 | one result per digest, each retrieved with the given limit and `raw` false |
| Legacy.ReconstructAll | build/lib/henge/deprecated.py:112-113 | one result per piece, each reconstructed against the items schema with the same limit |
| Legacy.RetrieveOldMissingType | build/lib/henge/deprecated.py:4-8 | a missing `_item_type` slot raises NotFoundException(druid) |
| Legacy.Retrieve2NotFound | build/lib/henge/deprecated.py:165-181 | a missing `_item_type` slot, a missing henge for the type, or a missing payload each raises NotFoundException(druid) |
| Legacy.RetrieveOldAtZero | build/lib/henge/deprecated.py:18-50 | at limit 0 an array record is its raw tab-split list and an object record is its decoded dict, whatever the fuel |
| Legacy.Retrieve2AtZero | build/lib/henge/deprecated.py:126-149 | at limit 0 an object record is its decoded dict and a primitive is its stored string, unexpanded |
| Legacy.ExpandOldSpec | build/lib/henge/deprecated.py:54-60 | exactly the listed attributes that are present and non-empty are replaced by their retrieval; every other attribute is unchanged |
| Legacy.Expand2Spec | build/lib/henge/deprecated.py:133-139 | success implies every listed attribute is present; exactly the truthy listed ones are replaced by their retrieval; the rest are unchanged |
| Legacy.RetrieveOldObjectLevel | build/lib/henge/deprecated.py:47-61 | above limit 0, each expanded attribute of an object record is retrieved with the limit lowered by exactly one |
| Legacy.RetrieveOldArrayLevel | build/lib/henge/deprecated.py:27-31 | above limit 0, an array of classed items is one retrieval per digest, each with the limit lowered by exactly one |
| Legacy.Retrieve2ObjectLevel | build/lib/henge/deprecated.py:126-140 | above limit 0, a successful retrieve2 of an object record found every listed attribute; each truthy one is retrieved with the limit lowered by exactly one and the rest are unchanged |
| Legacy.Retrieve2PrimRefLevel | build/lib/henge/deprecated.py:146-154 | above limit 0, a primitive whose class is an object or array type is the retrieval of its stored string with the limit lowered by one |
| Legacy.RetrieveOldObjectRoundTrip | build/lib/henge/deprecated.py:34-61 | an object record stored as its legacy encoding is read back by `retrieveOld` as the encoded dict, when nothing is expanded |
| Legacy.Retrieve2ObjectRoundTrip | build/lib/henge/deprecated.py:114-140 | the same round trip through `retrieve2` |
| Legacy.RetrieveOldPrimRefRaises | build/lib/henge/deprecated.py:67-76 | as written, a primitive whose class is an object or array type raises UnboundLocalError for every limit n >= 0 |
| Legacy.RetrieveOldPrimRefReturnsPayload | build/lib/henge/deprecated.py:67-76 | with the debug line reading the value after the lookup, the same call returns the stored string, or NotFoundException when it is missing |
| Legacy.RetrieveOldPrimRefUnlimited | build/lib/henge/deprecated.py:72-76 | without a limit that branch re-retrieves the same druid forever: every depth bound is exhausted |
| Legacy.PrimRefExampleDiffers | build/lib/henge/deprecated.py:67-71 | a concrete record on which the two readings differ: UnboundLocalError as written, "abc" as intended |

## Left out

- The command line, logging and version parser (henge/henge.py:213-268) and `show`. They only parse arguments and print.
- `clean`: it deletes from the dict it iterates over.
- The MongoDB back end (`MongoDict`, pymongo). The database is a plain map.
- `jsonschema.validate`, `hashlib.md5` and Python's rendering of lists and dicts inside `str()` are left abstract as function parameters.
- Floating-point numbers: items hold strings, ints, booleans, None, lists and dicts.
- `docs/example.py` outside `split_schema` (`load_family`, the stray fragment, the top-level calls). That code is broken scratch code.
- The script body of `tests/interactive_tests.py` (lines 1-86).
- `henge/__init__.py`, `setup.py` and `tests/conftest.py` are not part of this model.
- `self.lookup`, which `retrieveOld` calls, is not part of this model. `Legacy.Lookup` assumes it follows `retrieve2`'s chain: the henge of the item type, then its database, with NotFoundException on either miss.
- `ITEM_TYPE` in `deprecated.py` is taken to be `"_item_type"`, the suffix `henge.py` uses.
- Both legacy readers call `self.retrieve`. Here each reader calls itself.
- A `reclimit` that is neither an int nor None is not modelled. Without a limit (None) no floor applies, in either revision.
- HengeStore.Retrieve: nested object retrievals pass `reclimit` unchanged, so the source does not bound them. The model bounds them by `fuel` and returns OutOfFuel past it.
- Legacy.RetrieveOld: the same `fuel` bound applies to its primitive-reference branch and to all nested retrievals.
- Legacy.Retrieve2: the same `fuel` bound applies to all nested retrievals.
- HengeStore.SelectItemType: it returns the set of matching types, not the list in dict order.
- HengeStore.Insert: `insert`'s `item_type=None` default is not modelled; the type is always a string. None is never a schema key, so that call returns False like any unknown type.
- Values.SafeStr: `str()` of an int never fails here. The bare `except` would turn the ValueError that some Python versions raise for an int of more than 4300 digits into `""`.
- Legacy.LegacyEncode: for a primitive schema the source returns the item itself, so a non-string item only fails later, when it is joined or digested. The model raises TypeError at once.
- HengeStore.Iterate: a dict item under an array schema is modelled as TypeError. Python iterates the dict's keys in insertion order, which a map does not keep.
- Legacy.LegacyEncode: it iterates arrays with the same `HengeStore.Iterate`, so a dict item under an array schema is a TypeError here as well.
- Inherent.SelectInherent: the source deletes the inherent keys from the caller's dict and returns that dict as `external`. The model returns a new value with the same contents and does not model the aliasing.
- SchemaCompiler.SplitSchema: the input is immutable, so the "no mutation of the input" property of the deep copies needs no proof. The `print` calls are dropped.
- Values.ToStr: it states only how strings and ints render. The rendering of booleans and None is in the body, and containers go through the abstract `repr`.
- `retrieve2`'s unfinished branch for arrays of classed primitives returns the literal "ASDF" (`Legacy.Unfinished`). The unreachable list comprehension after it is not modelled.
- Where a schema lacks a `type` key or an object lacks `properties`, Python raises KeyError. Schema trees here always carry both, so those errors are not modelled, except in `henge.py`'s encoder, where a primitive schema has no `properties` and raises KeyError.

## Findings

| source | as written | input that shows it | evidently intended | confidence | as-written member | corrected member |
|---|---|---|---|---|---|---|
| henge/henge.py:79, 94-96 | a collection lowers the limit before `process_item`, which stops expanding only when the limit equals 0, so `retrieve(c, reclimit=0)` on a collection expands its pieces with limit -1 and nested objects keep that limit | a collection `c` of two `node` records whose recursive `next` names a stored druid `d`, read with `reclimit=0` | stop expanding at any limit at or below 0, so limit 0 never performs a nested lookup | not executed | HengeStore.CollectionBelowFloor | HengeStore.RetrieveFloor |
| build/lib/henge/deprecated.py:68-71 | at limit 0 the debug line formats `string` before line 70 assigns it, so the branch raises UnboundLocalError | a record `d` of type `ref` whose schema is a string with `henge_class` `person`, an object type, read with `reclimit=0` | look the value up first, then log and return it | not executed | Legacy.RetrieveOldPrimRefRaises | Legacy.RetrieveOldPrimRefReturnsPayload |

=== FILE: delimited.dfy ===
/** Python's `str.split(sep)` and `sep.join(parts)` for a one-character
    separator, Python's ordering of `str` values, and `sorted` over a set of
    strings. These are the string primitives henge builds its flat records
    from. */
module Delimited {

  /** DELIM_ATTR, chr(30): separates the attributes of one item. */
  const AttrDelim: char := '\U{1E}'
  /** DELIM_ITEM: separates the items of a collection. */
  const ItemDelim: char := '\t'

  /** The parts in order with `d` between neighbours (Python's `d.join(xs)`). */
  function Join(xs: seq<string>, d: char): string
  {
    if |xs| == 0 then ""
    else if |xs| == 1 then xs[0]
    else xs[0] + [d] + Join(xs[1..], d)
  }

  /** `s.split(d)`: always at least one piece, and no piece holds `d`. */
  function Split(s: string, d: char): (r: seq<string>)
    ensures |r| >= 1
    ensures forall i | 0 <= i < |r| :: d !in r[i]
  {
    if |s| == 0 then [""]
    else
      var rest := Split(s[1..], d);
      if s[0] == d then [""] + rest
      else [[s[0]] + rest[0]] + rest[1..]
  }

  /** No element of `xs` contains the separator. */
  predicate NoneContain(xs: seq<string>, d: char)
  {
    forall i | 0 <= i < |xs| :: d !in xs[i]
  }

  lemma {:induction false} SplitWithout(s: string, d: char)
    requires d !in s
    ensures Split(s, d) == [s]
  {
    if |s| > 0 {
      SplitWithout(s[1..], d);
      assert [s[0]] + s[1..] == s;
    }
  }

  lemma {:induction false} SplitPrefix(x: string, t: string, d: char)
    requires d !in x
    ensures Split(x + [d] + t, d) == [x] + Split(t, d)
  {
    if |x| == 0 {
      assert x + [d] + t == [d] + t;
      assert ([d] + t)[1..] == t;
    } else {
      var s := x + [d] + t;
      assert s[1..] == x[1..] + [d] + t;
      SplitPrefix(x[1..], t, d);
      assert [x[0]] + x[1..] == x;
    }
  }

  /** Splitting a joined list gives the list back, provided it is not empty
      and no element contains the separator. */
  lemma {:induction false} SplitJoin(xs: seq<string>, d: char)
    requires |xs| >= 1
    requires NoneContain(xs, d)
    ensures Split(Join(xs, d), d) == xs
  {
    if |xs| == 1 {
      SplitWithout(xs[0], d);
    } else {
      SplitJoin(xs[1..], d);
      SplitPrefix(xs[0], Join(xs[1..], d), d);
      assert [xs[0]] + xs[1..] == xs;
    }
  }

  /** Joining the pieces of a split gives the string back. */
  lemma {:induction false} JoinSplit(s: string, d: char)
    ensures Join(Split(s, d), d) == s
  {
    if |s| > 0 {
      JoinSplit(s[1..], d);
      var rest := Split(s[1..], d);
      if s[0] == d {
        assert [""] + rest == [""] + rest;
        assert Join([""] + rest, d) == "" + [d] + Join(rest, d);
      } else {
        var r := [[s[0]] + rest[0]] + rest[1..];
        if |rest| == 1 {
          assert Join(r, d) == [s[0]] + rest[0];
        } else {
          assert r[1..] == rest[1..];
          assert Join(rest, d) == rest[0] + [d] + Join(rest[1..], d);
        }
      }
      assert [s[0]] + s[1..] == s;
    }
  }

  /** A joined string holds the separator exactly when there are two or more
      parts or some part holds it. */
  lemma {:induction false} JoinContains(xs: seq<string>, d: char)
    ensures d in Join(xs, d) <==> |xs| >= 2 || !NoneContain(xs, d)
  {
    if |xs| >= 2 {
      var j := Join(xs, d);
      assert j[|xs[0]|] == d;
    } else if |xs| == 1 {
      assert Join(xs, d) == xs[0];
    }
  }

  /** Joining never introduces a character other than the separator. */
  lemma {:induction false} JoinFreeOf(xs: seq<string>, d: char, c: char)
    requires c != d
    requires NoneContain(xs, c)
    ensures c !in Join(xs, d)
  {
    if |xs| >= 2 {
      JoinFreeOf(xs[1..], d, c);
    }
  }

  /** Python's `a < b` on `str`: lexicographic by code point, a proper prefix
      coming first. */
  predicate Less(a: string, b: string)
  {
    if |b| == 0 then false
    else if |a| == 0 then true
    else if a[0] != b[0] then a[0] < b[0]
    else Less(a[1..], b[1..])
  }

  lemma {:induction false} LessIrreflexive(a: string)
    ensures !Less(a, a)
  {
    if |a| > 0 {
      LessIrreflexive(a[1..]);
    }
  }

  lemma {:induction false} LessTransitive(a: string, b: string, c: string)
    requires Less(a, b) && Less(b, c)
    ensures Less(a, c)
  {
    if |a| > 0 && a[0] == b[0] && b[0] == c[0] {
      LessTransitive(a[1..], b[1..], c[1..]);
    }
  }

  lemma {:induction false} LessTotal(a: string, b: string)
    requires a != b
    ensures Less(a, b) || Less(b, a)
  {
    if |a| > 0 && |b| > 0 && a[0] == b[0] {
      assert a == [a[0]] + a[1..] && b == [b[0]] + b[1..];
      LessTotal(a[1..], b[1..]);
    }
  }

  lemma LessAsymmetric(a: string, b: string)
    ensures !(Less(a, b) && Less(b, a))
  {
    if Less(a, b) && Less(b, a) {
      LessTransitive(a, b, a);
      LessIrreflexive(a);
    }
  }

  /** Strictly ascending under Python's string order (so also duplicate free). */
  predicate StrictlySorted(xs: seq<string>)
  {
    forall i, j | 0 <= i < j < |xs| :: Less(xs[i], xs[j])
  }

  /** Adds `x` to an ascending list, keeping it ascending and duplicate free. */
  function InsertSorted(x: string, xs: seq<string>): (r: seq<string>)
    requires StrictlySorted(xs)
    ensures StrictlySorted(r)
    ensures forall y :: y in r <==> y == x || y in xs
  {
    if |xs| == 0 then [x]
    else if x == xs[0] then xs
    else if Less(x, xs[0]) then
      assert forall j | 0 < j < |xs| :: Less(x, xs[j]) by {
        forall j | 0 < j < |xs| ensures Less(x, xs[j]) {
          LessTransitive(x, xs[0], xs[j]);
        }
      }
      [x] + xs
    else
      LessTotal(x, xs[0]);
      var tail := InsertSorted(x, xs[1..]);
      assert forall y | y in tail :: Less(xs[0], y) by {
        forall y | y in tail ensures Less(xs[0], y) {
          if y != x {
            var j :| 0 <= j < |xs[1..]| && xs[1..][j] == y;
            assert xs[j + 1] == y;
          }
        }
      }
      var r := [xs[0]] + tail;
      assert forall i, j | 0 <= i < j < |r| :: Less(r[i], r[j]) by {
        forall i, j | 0 <= i < j < |r| ensures Less(r[i], r[j]) {
          if i == 0 {
            assert r[j] in tail;
          } else {
            assert r[i] == tail[i - 1] && r[j] == tail[j - 1];
          }
        }
      }
      assert forall y :: y in xs <==> y == xs[0] || y in xs[1..] by {
        assert xs == [xs[0]] + xs[1..];
      }
      r
  }

  /** The distinct strings of `xs` in ascending Python order. */
  function SortStrings(xs: seq<string>): (r: seq<string>)
    ensures StrictlySorted(r)
    ensures forall y :: y in r <==> y in xs
  {
    if |xs| == 0 then []
    else
      var r := InsertSorted(xs[|xs| - 1], SortStrings(xs[..|xs| - 1]));
      assert forall y :: y in xs <==> y == xs[|xs| - 1] || y in xs[..|xs| - 1] by {
        assert xs == xs[..|xs| - 1] + [xs[|xs| - 1]];
      }
      r
  }

  /** The head of an ascending list is below every other element. */
  lemma HeadIsLeast(xs: seq<string>, y: string)
    requires StrictlySorted(xs)
    requires y in xs
    ensures y == xs[0] || Less(xs[0], y)
  {
  }

  /** There is only one ascending list of a given set of strings, so the
      result of `SortStrings` does not depend on the order of its input. */
  lemma {:induction false} StrictlySortedUnique(xs: seq<string>, ys: seq<string>)
    requires StrictlySorted(xs) && StrictlySorted(ys)
    requires forall y :: y in xs <==> y in ys
    ensures xs == ys
  {
    assert |xs| > 0 ==> xs[0] in ys;
    assert |ys| > 0 ==> ys[0] in xs;
    if |xs| > 0 {
      HeadIsLeast(ys, xs[0]);
      HeadIsLeast(xs, ys[0]);
      LessAsymmetric(xs[0], ys[0]);
      assert xs[0] == ys[0];
      forall y ensures y in xs[1..] <==> y in ys[1..] {
        assert xs == [xs[0]] + xs[1..] && ys == [ys[0]] + ys[1..];
        LessIrreflexive(y);
        if y in xs[1..] {
          var i :| 0 <= i < |xs[1..]| && xs[1..][i] == y;
          assert xs[i + 1] == y;
          assert Less(xs[0], xs[i + 1]);
          assert y in ys;
        }
        if y in ys[1..] {
          var i :| 0 <= i < |ys[1..]| && ys[1..][i] == y;
          assert ys[i + 1] == y;
          assert Less(ys[0], ys[i + 1]);
          assert y in xs;
        }
      }
      StrictlySortedUnique(xs[1..], ys[1..]);
      assert xs == [xs[0]] + xs[1..] && ys == [ys[0]] + ys[1..];
    }
  }
}

=== FILE: henge_store.dfy ===
/** `Henge` (henge/henge.py): flattens an item into a delimiter-joined
    string, stores it under its checksum with two metadata slots, and
    rebuilds items from the store. The database is an explicit
    `map<string, string>` passed in and returned; the checksum function,
    the jsonschema validator and Python's container rendering are
    function-valued parameters about which nothing is assumed. */
module HengeStore {
  import opened Wrappers
  import opened Delimited
  import opened Values
  import opened Schemas

  type Db = map<string, string>

  /** A Henge's configuration: its schemas, its `checksum_function`,
      `jsonschema.validate` (true when the item validates) and the rendering
      `str()` uses for lists and dicts. */
  datatype Henge = Henge(
    schemas: Registry,
    checksum: string -> string,
    validate: (Json, Schema) -> bool,
    repr: Json -> string)

  /** The digest version recorded when an insert names none. */
  const DigestVersion: string := "md5"
  const ItemTypeSuffix: string := "_item_type"
  const DigestVersionSuffix: string := "_digest_version"
  /** What `retrieve` returns for a digest not in the database. */
  const NotFoundText: string := "Not found"

  /** What `insert` returns: the druid, or Python's `False`. */
  datatype Reply = Druid(druid: string) | False

  /** `list_item_types`: the item types this Henge accepts. */
  function ListItemTypes(h: Henge): (r: set<string>)
    ensures forall t :: t in r <==> t in h.schemas
  {
    h.schemas.Keys
  }

  /** The item has a schema under `t` and validates against it. */
  predicate Selectable(h: Henge, item: Json, t: string)
  {
    t in h.schemas && h.validate(item, h.schemas[t])
  }

  /** `select_item_type`: the item types whose schema the item validates
      against. The source returns them as a list in dict order; the model
      returns the set. */
  method SelectItemType(h: Henge, item: Json) returns (types: set<string>)
    ensures forall t :: t in types <==> Selectable(h, item, t)
  {
    types := {};
    var todo := h.schemas.Keys;
    while todo != {}
      invariant todo <= h.schemas.Keys
      invariant forall t :: t in types <==> t in h.schemas.Keys - todo && h.validate(item, h.schemas[t])
      decreases todo
    {
      var t :| t in todo;
      if h.validate(item, h.schemas[t]) {
        types := types + {t};
      }
      todo := todo - {t};
    }
  }

  /** `list_item_types` lists exactly the types `insert` accepts: an
      unlisted type is answered with False and no write, and a listed type
      the item validates against is never answered with False. */
  lemma ListedTypesAreInsertable(h: Henge, db: Db, item: Json, itemType: string)
    ensures itemType !in ListItemTypes(h) ==> Insert(h, db, item, itemType) == Success((False, db))
    ensures itemType in ListItemTypes(h) && h.validate(item, h.schemas[itemType]) ==>
      Insert(h, db, item, itemType).Success? ==> Insert(h, db, item, itemType).value.0.Druid?
  {
  }

  /** `for x in item` as used when encoding against an array schema: a list
      yields its elements and a string its characters. */
  function Iterate(item: Json): (r: Result<seq<Json>, PyError>)
    ensures item.JArr? ==> r == Success(item.elems)
    ensures item.JStr? ==> (r.Success? && |r.value| == |item.s| &&
      forall i | 0 <= i < |item.s| :: r.value[i] == JStr([item.s[i]]))
    ensures !item.JArr? && !item.JStr? ==> r == Failure(TypeError)
  {
    match item
    case JArr(xs) => Success(xs)
    case JStr(s) => Success(seq(|s|, i requires 0 <= i < |s| => JStr([s[i]])))
    case _ => Failure(TypeError)
  }

  /** The items `build_attr_string` can encode against a schema: any item
      for an object schema; for an array schema, a list whose elements (or a
      string whose characters) are encodable against the items schema; for
      a primitive schema, nothing. */
  predicate Encodable(item: Json, schema: Schema)
    decreases schema
  {
    match schema
    case Prim(_, _, _) => false
    case Obj(_, _, _, _) => true
    case Arr(items, _, _) =>
      match item
      case JArr(xs) => forall i | 0 <= i < |xs| :: Encodable(xs[i], items)
      case JStr(str) => forall i | 0 <= i < |str| :: Encodable(JStr([str[i]]), items)
      case _ => false
  }

  /** The concatenation of the strings among `xs`. */
  function Concat(xs: seq<Json>): string
  {
    if |xs| == 0 then "" else (if xs[0].JStr? then xs[0].s else "") + Concat(xs[1..])
  }

  /** Iterating a string yields pieces that concatenate back to it. */
  lemma {:induction false} IterateStringRoundTrip(s: string)
    ensures Iterate(JStr(s)).Success?
    ensures Concat(Iterate(JStr(s)).value) == s
  {
    if |s| > 0 {
      IterateStringRoundTrip(s[1..]);
      assert Iterate(JStr(s)).value[1..] == Iterate(JStr(s[1..])).value;
      assert [s[0]] + s[1..] == s;
    }
  }

  /** `build_attr_string`: an array is the tab-join of its elements'
      encodings; an object is the `\x1e`-join of `safestr` over the schema's
      property names; a primitive schema has no 'properties' (KeyError). It
      succeeds exactly on the encodable items, and otherwise raises KeyError
      or TypeError. */
  function Encode(item: Json, schema: Schema, repr: Json -> string): (r: Result<string, PyError>)
    decreases schema, 0
    ensures r.Success? <==> Encodable(item, schema)
    ensures r.Failure? ==> r.error == KeyError("properties") || r.error == TypeError
  {
    match schema
    case Arr(items, _, _) =>
      var elems :- Iterate(item);
      var parts :- EncodeAll(elems, items, repr);
      Success(Join(parts, ItemDelim))
    case Obj(props, _, _, _) =>
      Success(Join(SafeStrs(item, Names(props), repr), AttrDelim))
    case Prim(_, _, _) =>
      Failure(KeyError("properties"))
  }

  /** The element encodings of an array, failing with the first element
      that fails. */
  function EncodeAll(xs: seq<Json>, items: Schema, repr: Json -> string): (r: Result<seq<string>, PyError>)
    decreases items, |xs| + 1
    ensures r.Success? <==> forall i | 0 <= i < |xs| :: Encode(xs[i], items, repr).Success?
    ensures r.Success? ==> (|r.value| == |xs| &&
      forall i | 0 <= i < |xs| :: r.value[i] == Encode(xs[i], items, repr).value)
    ensures r.Failure? ==> r.error == KeyError("properties") || r.error == TypeError
  {
    if |xs| == 0 then Success([])
    else
      var first :- Encode(xs[0], items, repr);
      var rest :- EncodeAll(xs[1..], items, repr);
      assert forall i | 1 <= i < |xs| :: xs[i] == xs[1..][i - 1];
      Success([first] + rest)
  }

  /** The record a successful insert leaves: exactly the three keys of the
      druid are written, and no other key changes. */
  predicate StoresRecord(db: Db, db': Db, druid: string, payload: string, itemType: string, version: string)
  {
    && db'.Keys == db.Keys + {druid, druid + ItemTypeSuffix, druid + DigestVersionSuffix}
    && db'[druid] == payload
    && db'[druid + ItemTypeSuffix] == itemType
    && db'[druid + DigestVersionSuffix] == version
    && forall k | k in db && k != druid && k != druid + ItemTypeSuffix && k != druid + DigestVersionSuffix ::
         db'[k] == db[k]
  }

  /** `_henge_insert`: a missing or empty `digest_version` means "md5". */
  function HengeInsert(db: Db, druid: string, s: string, itemType: string, digestVersion: Option<string>): (db': Db)
    ensures StoresRecord(db, db', druid, s, itemType,
      if digestVersion.None? || digestVersion.value == "" then DigestVersion else digestVersion.value)
  {
    var version := if digestVersion.None? || digestVersion.value == "" then DigestVersion else digestVersion.value;
    assert |druid + ItemTypeSuffix| != |druid| && |druid + DigestVersionSuffix| != |druid + ItemTypeSuffix|;
    db[druid := s][druid + ItemTypeSuffix := itemType][druid + DigestVersionSuffix := version]
  }

  /** `insert`: an unknown item type or an item the validator rejects gives
      `False` and leaves the database as it was; otherwise the item's
      encoding is stored under its checksum, which is returned. Encoding
      against a primitive schema raises. */
  function Insert(h: Henge, db: Db, item: Json, itemType: string): (r: Result<(Reply, Db), PyError>)
    ensures itemType !in h.schemas ==> r == Success((False, db))
    ensures itemType in h.schemas && !h.validate(item, h.schemas[itemType]) ==> r == Success((False, db))
    ensures r.Success? && r.value.0 == False ==> r.value.1 == db
    ensures r.Failure? <==>
      itemType in h.schemas && h.validate(item, h.schemas[itemType]) &&
      Encode(item, h.schemas[itemType], h.repr).Failure?
    ensures r.Success? && r.value.0.Druid? ==>
      && itemType in h.schemas
      && h.validate(item, h.schemas[itemType])
      && Encode(item, h.schemas[itemType], h.repr).Success?
      && var enc := Encode(item, h.schemas[itemType], h.repr).value;
         && r.value.0.druid == h.checksum(enc)
         && StoresRecord(db, r.value.1, r.value.0.druid, enc, itemType, DigestVersion)
  {
    if itemType !in h.schemas then Success((False, db))
    else
      var schema := h.schemas[itemType];
      if !h.validate(item, schema) then Success((False, db))
      else
        var enc :- Encode(item, schema, h.repr);
        var druid := h.checksum(enc);
        Success((Druid(druid), HengeInsert(db, druid, enc, itemType, None)))
  }

  /** Inserting the same item again returns the same druid and leaves the
      database exactly as the first insert left it. */
  lemma InsertIdempotent(h: Henge, db: Db, item: Json, itemType: string)
    requires Insert(h, db, item, itemType).Success?
    ensures var (reply, db1) := Insert(h, db, item, itemType).value;
      Insert(h, db1, item, itemType) == Success((reply, db1))
  {
    var (reply, db1) := Insert(h, db, item, itemType).value;
    if reply.Druid? {
      var enc := Encode(item, h.schemas[itemType], h.repr).value;
      var d := reply.druid;
      var db2 := HengeInsert(db1, d, enc, itemType, None);
      assert db2.Keys == db1.Keys;
      assert forall k | k in db1 :: db2[k] == db1[k];
      assert db2 == db1;
      assert Insert(h, db1, item, itemType) == Success((Druid(d), db2));
    }
  }

  /** An object's encoding splits back into one field per schema property,
      in schema order, provided no field holds `\x1e` and the schema has a
      property; zipping the names with those fields recovers `str(item[k])`
      (or "") for every property. */
  lemma ObjectEncodingFields(item: Json, schema: Schema, repr: Json -> string)
    requires schema.Obj? && |schema.props| >= 1
    requires NoneContain(SafeStrs(item, Names(schema.props), repr), AttrDelim)
    ensures Encode(item, schema, repr).Success?
    ensures Split(Encode(item, schema, repr).value, AttrDelim) == SafeStrs(item, Names(schema.props), repr)
    ensures Zip(Names(schema.props), Split(Encode(item, schema, repr).value, AttrDelim))
         == map n | n in Names(schema.props) :: SafeStr(item, n, repr)
  {
    var names := Names(schema.props);
    SplitJoin(SafeStrs(item, names, repr), AttrDelim);
    ZipByName(names, SafeStrs(item, names, repr), n => SafeStr(item, n, repr));
  }

  /** A list's encoding splits back on tabs into its elements' encodings,
      provided no element encoding holds a tab and the list is not empty. */
  lemma ArrayEncodingElements(xs: seq<Json>, schema: Schema, repr: Json -> string)
    requires schema.Arr? && |xs| >= 1
    requires Encode(JArr(xs), schema, repr).Success?
    ensures forall i | 0 <= i < |xs| :: Encode(xs[i], schema.items, repr).Success?
    ensures var pieces := Split(Encode(JArr(xs), schema, repr).value, ItemDelim);
      (forall i | 0 <= i < |xs| :: ItemDelim !in Encode(xs[i], schema.items, repr).value) ==>
        |pieces| == |xs| && forall i | 0 <= i < |xs| :: pieces[i] == Encode(xs[i], schema.items, repr).value
  {
    var parts := EncodeAll(xs, schema.items, repr).value;
    if forall i | 0 <= i < |xs| :: ItemDelim !in Encode(xs[i], schema.items, repr).value {
      SplitJoin(parts, ItemDelim);
    }
  }

  function Decrement(reclimit: Option<int>): (r: Option<int>)
    ensures r.Some? <==> reclimit.Some?
    ensures r.Some? ==> r.value == reclimit.value - 1
  {
    if reclimit.Some? then Some(reclimit.value - 1) else None
  }

  /** The exceptions `retrieve` can raise. A missing druid is answered with
      "Not found", never with NotFoundException. */
  predicate RetrieveError(e: PyError)
  {
    e.KeyError? || e == TypeError || e == UnboundLocalError || e == OutOfFuel
  }

  /** Whether `process_item` stops expanding references at this limit. As
      written it stops only at a limit of exactly 0, so a collection read at
      limit 0, whose pieces see the limit lowered to -1, still expands; the
      evidently intended floor stops at every limit at or below 0. No limit
      never stops. */
  predicate AtFloor(rev: Revision, reclimit: Option<int>)
  {
    reclimit.Some? && (if rev == AsWritten then reclimit.value == 0 else reclimit.value <= 0)
  }

  /** `retrieve(druid, reclimit, raw)`. `fuel` bounds the depth of nested
      `retrieve` calls, which the source does not bound: it passes `reclimit`
      unchanged into object references. A collection payload gives one
      value per tab-separated piece; any other payload is a raw string
      exactly when `raw` is set and it has no `\x1e`, and a dict otherwise.
      `rev` chooses the stop test of AtFloor. */
  function Retrieve(h: Henge, rev: Revision, db: Db, druid: string, reclimit: Option<int>, raw: bool, fuel: nat)
    : (r: Result<Value, PyError>)
    decreases fuel, 3, 0
    ensures r.Failure? ==> RetrieveError(r.error)
    ensures r.Success? && druid in db && ItemDelim in db[druid] ==>
      r.value.VList? && |r.value.elems| == |Split(db[druid], ItemDelim)|
    ensures r.Success? && druid in db && ItemDelim !in db[druid] ==>
      (r.value.VStr? <==> raw && AttrDelim !in db[druid]) && (!r.value.VStr? ==> r.value.VDict?)
  {
    if druid !in db then Success(VStr(NotFoundText))
    else
      var s := db[druid];
      if ItemDelim !in s then ProcessItem(h, rev, db, druid, s, reclimit, raw, fuel)
      else
        var items :- ProcessPieces(h, rev, db, druid, Split(s, ItemDelim), Decrement(reclimit), raw, fuel);
        Success(VList(items))
  }

  /** Processes each tab-separated piece of a collection in order, all with
      the same limit and the outer druid's item type. */
  function ProcessPieces(h: Henge, rev: Revision, db: Db, druid: string, pieces: seq<string>, reclimit: Option<int>,
                         raw: bool, fuel: nat): (r: Result<seq<Value>, PyError>)
    decreases fuel, 2, |pieces|
    ensures r.Success? ==> (|r.value| == |pieces| &&
      forall i | 0 <= i < |pieces| :: ProcessItem(h, rev, db, druid, pieces[i], reclimit, raw, fuel) == Success(r.value[i]))
    ensures r.Failure? ==> RetrieveError(r.error)
  {
    if |pieces| == 0 then Success([])
    else
      var first :- ProcessItem(h, rev, db, druid, pieces[0], reclimit, raw, fuel);
      var rest :- ProcessPieces(h, rev, db, druid, pieces[1..], reclimit, raw, fuel);
      Success([first] + rest)
  }

  /** `process_item(string, reclimit)`; it reads the item type of the outer
      `druid`, also for each piece of a collection. A string is returned
      only for a raw payload without `\x1e`. A payload with `\x1e` is read
      back only under an object schema or an array of objects, and then
      every key of the dict is one of that schema's property names. */
  function ProcessItem(h: Henge, rev: Revision, db: Db, druid: string, s: string, reclimit: Option<int>,
                       raw: bool, fuel: nat): (r: Result<Value, PyError>)
    decreases fuel, 1, 0
    ensures r.Failure? ==> RetrieveError(r.error)
    ensures r.Success? ==> (r.value.VStr? <==> raw && AttrDelim !in s) && (!r.value.VStr? ==> r.value.VDict?)
    ensures r.Success? && AttrDelim in s ==>
      && druid + ItemTypeSuffix in db && db[druid + ItemTypeSuffix] in h.schemas
      && var schema := h.schemas[db[druid + ItemTypeSuffix]];
         && (schema.Obj? || (schema.Arr? && schema.items.Obj?))
         && forall k | k in r.value.fields :: k in Names(if schema.Obj? then schema.props else schema.items.props)
  {
    if AttrDelim !in s then
      if raw then Success(VStr(s))
      else if druid + ItemTypeSuffix !in db then Failure(KeyError(druid + ItemTypeSuffix))
      else Success(VDict(map[db[druid + ItemTypeSuffix] := VStr(s)]))
    else if druid + ItemTypeSuffix !in db then Failure(KeyError(druid + ItemTypeSuffix))
    else
      var itemType := db[druid + ItemTypeSuffix];
      if itemType !in h.schemas then Failure(KeyError(itemType))
      else
        var schema := h.schemas[itemType];
        // item_reconstituted is never assigned for a primitive schema; a
        // `recursive: True` marker is iterated (and fails) before it is read
        if schema.Prim? then
          if !AtFloor(rev, reclimit) && schema.recursiveMark then Failure(TypeError) else Failure(UnboundLocalError)
        else if schema.Arr? && !schema.items.Obj? then Failure(KeyError("properties"))
        else
          var names := if schema.Obj? then Names(schema.props) else Names(schema.items.props);
          var item := StrMap(Zip(names, Split(s, AttrDelim)));
          if AtFloor(rev, reclimit) || schema.recursive.None? then Success(VDict(item))
          else
            var expanded :- ExpandAttrs(h, rev, db, schema.recursive.value, item, reclimit, raw, fuel);
            Success(VDict(expanded))
  }

  /** The loop over `schema['recursive']`: a present, truthy attribute is
      replaced by the retrieval of the druid it holds. The loop succeeds
      only if every listed attribute is present; it keeps the dict's keys
      and leaves unlisted attributes as they were. */
  function ExpandAttrs(h: Henge, rev: Revision, db: Db, attrs: seq<string>, item: map<string, Value>,
                       reclimit: Option<int>, raw: bool, fuel: nat): (r: Result<map<string, Value>, PyError>)
    decreases fuel, 0, |attrs|
    ensures r.Failure? ==> RetrieveError(r.error)
    ensures r.Success? ==> r.value.Keys == item.Keys
    ensures r.Success? ==> forall i | 0 <= i < |attrs| :: attrs[i] in item
    ensures r.Success? ==> forall k | k in item && k !in attrs :: r.value[k] == item[k]
  {
    if |attrs| == 0 then Success(item)
    else
      var a := attrs[0];
      assert forall k | k in attrs[1..] :: k in attrs;
      assert forall i | 1 <= i < |attrs| :: attrs[i] == attrs[1..][i - 1];
      if a !in item then Failure(KeyError(a))
      else if !Truthy(item[a]) then ExpandAttrs(h, rev, db, attrs[1..], item, reclimit, raw, fuel)
      // a list or dict left by an earlier replacement is not hashable
      else if !item[a].VStr? then Failure(TypeError)
      else if fuel == 0 then Failure(OutOfFuel)
      else
        var v :- Retrieve(h, rev, db, item[a].s, reclimit, raw, fuel - 1);
        ExpandAttrs(h, rev, db, attrs[1..], item[a := v], reclimit, raw, fuel)
  }

  /** A `\x1e` payload read back as a dict holds exactly the property names
      `zip` pairs with a field: the first min(#names, #fields) of them, so a
      payload with fewer fields than the schema has properties leaves out
      the later names. Expanding attributes keeps the keys. */
  lemma ProcessItemKeys(h: Henge, rev: Revision, db: Db, druid: string, s: string, reclimit: Option<int>,
                        raw: bool, fuel: nat)
    requires AttrDelim in s
    requires ProcessItem(h, rev, db, druid, s, reclimit, raw, fuel).Success?
    ensures druid + ItemTypeSuffix in db && db[druid + ItemTypeSuffix] in h.schemas
    ensures var schema := h.schemas[db[druid + ItemTypeSuffix]];
      var names := if schema.Obj? then Names(schema.props) else Names(schema.items.props);
      var fields := Split(s, AttrDelim);
      var r := ProcessItem(h, rev, db, druid, s, reclimit, raw, fuel).value;
      r.VDict? && r.fields.Keys == set i | 0 <= i < Shorter(names, fields) :: names[i]
  {
    var schema := h.schemas[db[druid + ItemTypeSuffix]];
    assert schema.Obj? || (schema.Arr? && schema.items.Obj?);
    var names := if schema.Obj? then Names(schema.props) else Names(schema.items.props);
    var fields := Split(s, AttrDelim);
    var item := StrMap(Zip(names, fields));
    ZipKeys(names, fields);
    var r := ProcessItem(h, rev, db, druid, s, reclimit, raw, fuel);
    if AtFloor(rev, reclimit) || schema.recursive.None? {
      assert r == Success(VDict(item));
    } else {
      var expanded := ExpandAttrs(h, rev, db, schema.recursive.value, item, reclimit, raw, fuel);
      assert r.Success? ==> expanded.Success? && r == Success(VDict(expanded.value));
    }
  }

  /** A druid that is not in the database gives "Not found", whatever else
      the database, the schemas or the limits hold. */
  lemma RetrieveMissing(h: Henge, rev: Revision, db: Db, druid: string, reclimit: Option<int>, raw: bool, fuel: nat)
    requires druid !in db
    ensures Retrieve(h, rev, db, druid, reclimit, raw, fuel) == Success(VStr(NotFoundText))
  {
  }

  /** A payload with neither delimiter is the raw string, or a one-entry
      dict from the item type to it. */
  lemma RetrievePlain(h: Henge, rev: Revision, db: Db, druid: string, reclimit: Option<int>, raw: bool, fuel: nat)
    requires druid in db && ItemDelim !in db[druid] && AttrDelim !in db[druid]
    ensures raw ==> Retrieve(h, rev, db, druid, reclimit, raw, fuel) == Success(VStr(db[druid]))
    ensures !raw && druid + ItemTypeSuffix in db ==>
      Retrieve(h, rev, db, druid, reclimit, raw, fuel)
        == Success(VDict(map[db[druid + ItemTypeSuffix] := VStr(db[druid])]))
    ensures !raw && druid + ItemTypeSuffix !in db ==>
      Retrieve(h, rev, db, druid, reclimit, raw, fuel) == Failure(KeyError(druid + ItemTypeSuffix))
  {
  }

  /** An object payload (with `\x1e`, without tabs) is the dict zipping the
      schema's property names with its fields, returned as is when the limit
      is 0 or the schema has no `recursive` list. Only the druid's own two
      keys are read. */
  lemma RetrieveFlatObject(h: Henge, rev: Revision, db: Db, druid: string, reclimit: Option<int>, raw: bool, fuel: nat)
    requires druid in db && ItemDelim !in db[druid] && AttrDelim in db[druid]
    requires druid + ItemTypeSuffix in db && db[druid + ItemTypeSuffix] in h.schemas
    requires h.schemas[db[druid + ItemTypeSuffix]].Obj?
    requires AtFloor(rev, reclimit) || h.schemas[db[druid + ItemTypeSuffix]].recursive.None?
    ensures Retrieve(h, rev, db, druid, reclimit, raw, fuel)
         == Success(VDict(StrMap(Zip(Names(h.schemas[db[druid + ItemTypeSuffix]].props), Split(db[druid], AttrDelim)))))
    ensures forall db': Db, fuel': nat |
      druid in db' && db'[druid] == db[druid] &&
      druid + ItemTypeSuffix in db' && db'[druid + ItemTypeSuffix] == db[druid + ItemTypeSuffix] ::
        Retrieve(h, rev, db', druid, reclimit, raw, fuel') == Retrieve(h, rev, db, druid, reclimit, raw, fuel)
  {
  }

  /** A tab-containing payload is a collection: the limit drops by one once,
      and every tab-separated piece is processed with the lowered limit. */
  lemma RetrieveCollection(h: Henge, rev: Revision, db: Db, druid: string, reclimit: Option<int>, raw: bool, fuel: nat)
    requires druid in db && ItemDelim in db[druid]
    requires Retrieve(h, rev, db, druid, reclimit, raw, fuel).Success?
    ensures var r := Retrieve(h, rev, db, druid, reclimit, raw, fuel).value;
      var pieces := Split(db[druid], ItemDelim);
      && r.VList? && |r.elems| == |pieces| && |pieces| >= 2
      && forall i | 0 <= i < |pieces| ::
           ProcessItem(h, rev, db, druid, pieces[i], Decrement(reclimit), raw, fuel) == Success(r.elems[i])
  {
    var pieces := Split(db[druid], ItemDelim);
    JoinSplit(db[druid], ItemDelim);
    JoinContains(pieces, ItemDelim);
  }

  /** Round trip: an object inserted under a schema of two or more
      properties comes back from `retrieve` as the dict of `str(item[k])`
      (or "") over the schema's properties, provided no such string holds
      a delimiter and nothing is expanded. */
  lemma InsertThenRetrieve(h: Henge, rev: Revision, db: Db, item: Json, itemType: string,
                           reclimit: Option<int>, raw: bool, fuel: nat)
    requires Insert(h, db, item, itemType).Success? && Insert(h, db, item, itemType).value.0.Druid?
    requires h.schemas[itemType].Obj? && |h.schemas[itemType].props| >= 2
    requires forall n | n in Names(h.schemas[itemType].props) ::
      AttrDelim !in SafeStr(item, n, h.repr) && ItemDelim !in SafeStr(item, n, h.repr)
    requires AtFloor(rev, reclimit) || h.schemas[itemType].recursive.None?
    ensures var (reply, db1) := Insert(h, db, item, itemType).value;
      Retrieve(h, rev, db1, reply.druid, reclimit, raw, fuel)
        == Success(VDict(map n | n in Names(h.schemas[itemType].props) :: VStr(SafeStr(item, n, h.repr))))
  {
    var (reply, db1) := Insert(h, db, item, itemType).value;
    var schema := h.schemas[itemType];
    var names := Names(schema.props);
    var fields := SafeStrs(item, names, h.repr);
    var enc := Encode(item, schema, h.repr).value;
    assert NoneContain(fields, AttrDelim) && NoneContain(fields, ItemDelim) by {
      forall i | 0 <= i < |fields| ensures AttrDelim !in fields[i] && ItemDelim !in fields[i] {
        assert names[i] in names;
      }
    }
    JoinFreeOf(fields, AttrDelim, ItemDelim);
    JoinContains(fields, AttrDelim);
    ObjectEncodingFields(item, schema, h.repr);
    RetrieveFlatObject(h, rev, db1, reply.druid, reclimit, raw, fuel);
    var zipped := Zip(names, Split(enc, AttrDelim));
    assert StrMap(zipped) == map n | n in names :: VStr(SafeStr(item, n, h.repr));
  }

  /** A schema of a single property encodes without `\x1e`, so `retrieve`
      keys the value by the item type rather than by the property. */
  lemma InsertThenRetrieveSingleProperty(h: Henge, rev: Revision, db: Db, item: Json, itemType: string,
                                         reclimit: Option<int>, fuel: nat)
    requires Insert(h, db, item, itemType).Success? && Insert(h, db, item, itemType).value.0.Druid?
    requires h.schemas[itemType].Obj? && |h.schemas[itemType].props| == 1
    requires var v := SafeStr(item, h.schemas[itemType].props[0].name, h.repr);
      AttrDelim !in v && ItemDelim !in v
    ensures var (reply, db1) := Insert(h, db, item, itemType).value;
      Retrieve(h, rev, db1, reply.druid, reclimit, false, fuel)
        == Success(VDict(map[itemType := VStr(SafeStr(item, h.schemas[itemType].props[0].name, h.repr))]))
  {
    var schema := h.schemas[itemType];
    assert Join(SafeStrs(item, Names(schema.props), h.repr), AttrDelim)
        == SafeStr(item, schema.props[0].name, h.repr);
  }

  /** `insert` answers `False` exactly for the types `select_item_type`
      does not offer for the item (the Selectable ones, by SelectItemType's
      contract); for an offered type it either raises or answers a druid. */
  lemma SelectedTypesPassInsertGates(h: Henge, db: Db, item: Json, itemType: string)
    ensures Selectable(h, item, itemType) <==> Insert(h, db, item, itemType) != Success((False, db))
    ensures Selectable(h, item, itemType) && Insert(h, db, item, itemType).Success? ==>
      Insert(h, db, item, itemType).value.0.Druid?
  {
  }

  /** henge.py's attribute loop replaces exactly the listed attributes that
      are truthy, each by the retrieval of the druid it holds with the SAME
      limit it was given; every other attribute keeps its value. */
  lemma {:induction false} ExpandAttrsSpec(h: Henge, rev: Revision, db: Db, attrs: seq<string>, item: map<string, Value>,
                                           reclimit: Option<int>, raw: bool, fuel: nat)
    requires Distinct(attrs)
    requires ExpandAttrs(h, rev, db, attrs, item, reclimit, raw, fuel).Success?
    ensures var out := ExpandAttrs(h, rev, db, attrs, item, reclimit, raw, fuel).value;
      && (forall k | k in item && (k !in attrs || !Truthy(item[k])) :: out[k] == item[k])
      && (forall k | k in item && k in attrs && Truthy(item[k]) ::
            item[k].VStr? && fuel > 0 && Retrieve(h, rev, db, item[k].s, reclimit, raw, fuel - 1) == Success(out[k]))
  {
    forall k | k in item
      ensures var out := ExpandAttrs(h, rev, db, attrs, item, reclimit, raw, fuel).value;
        && (k !in attrs || !Truthy(item[k]) ==> out[k] == item[k])
        && (k in attrs && Truthy(item[k]) ==>
              item[k].VStr? && fuel > 0 && Retrieve(h, rev, db, item[k].s, reclimit, raw, fuel - 1) == Success(out[k]))
    {
      ExpandAttrsAt(h, rev, db, attrs, item, reclimit, raw, fuel, k);
    }
  }

  /** ExpandAttrsSpec for one key of the dict. */
  lemma {:induction false} ExpandAttrsAt(h: Henge, rev: Revision, db: Db, attrs: seq<string>, item: map<string, Value>,
                                         reclimit: Option<int>, raw: bool, fuel: nat, k: string)
    requires Distinct(attrs) && k in item
    requires ExpandAttrs(h, rev, db, attrs, item, reclimit, raw, fuel).Success?
    ensures var out := ExpandAttrs(h, rev, db, attrs, item, reclimit, raw, fuel).value;
      && (k !in attrs || !Truthy(item[k]) ==> out[k] == item[k])
      && (k in attrs && Truthy(item[k]) ==>
            item[k].VStr? && fuel > 0 && Retrieve(h, rev, db, item[k].s, reclimit, raw, fuel - 1) == Success(out[k]))
    decreases |attrs|
  {
    if |attrs| > 0 {
      var a := attrs[0];
      assert attrs == [a] + attrs[1..];
      assert k in attrs <==> k == a || k in attrs[1..];
      assert a !in attrs[1..];
      if !Truthy(item[a]) {
        ExpandAttrsAt(h, rev, db, attrs[1..], item, reclimit, raw, fuel, k);
      } else {
        var v := Retrieve(h, rev, db, item[a].s, reclimit, raw, fuel - 1).value;
        ExpandAttrsAt(h, rev, db, attrs[1..], item[a := v], reclimit, raw, fuel, k);
      }
    }
  }

  /** An object record above the floor: every listed attribute is present,
      and each truthy one is retrieved with the limit passed on unchanged
      (only a collection lowers it). */
  lemma RetrieveObjectLevel(h: Henge, rev: Revision, db: Db, druid: string, reclimit: Option<int>, raw: bool, fuel: nat)
    requires druid in db && ItemDelim !in db[druid] && AttrDelim in db[druid]
    requires druid + ItemTypeSuffix in db && db[druid + ItemTypeSuffix] in h.schemas
    requires h.schemas[db[druid + ItemTypeSuffix]].Obj?
    requires h.schemas[db[druid + ItemTypeSuffix]].recursive.Some?
    requires Distinct(h.schemas[db[druid + ItemTypeSuffix]].recursive.value)
    requires !AtFloor(rev, reclimit)
    requires Retrieve(h, rev, db, druid, reclimit, raw, fuel).Success?
    ensures var schema := h.schemas[db[druid + ItemTypeSuffix]];
      var item := StrMap(Zip(Names(schema.props), Split(db[druid], AttrDelim)));
      var attrs := schema.recursive.value;
      var r := Retrieve(h, rev, db, druid, reclimit, raw, fuel).value;
      && r.VDict? && r.fields.Keys == item.Keys
      && (forall i | 0 <= i < |attrs| :: attrs[i] in item)
      && (forall k | k in item && (k !in attrs || !Truthy(item[k])) :: r.fields[k] == item[k])
      && (forall k | k in item && k in attrs && Truthy(item[k]) ::
            item[k].VStr? && fuel > 0 && Retrieve(h, rev, db, item[k].s, reclimit, raw, fuel - 1) == Success(r.fields[k]))
  {
    var schema := h.schemas[db[druid + ItemTypeSuffix]];
    var item := StrMap(Zip(Names(schema.props), Split(db[druid], AttrDelim)));
    ExpandAttrsSpec(h, rev, db, schema.recursive.value, item, reclimit, raw, fuel);
  }

  /** An object record whose first `recursive` attribute holds its own
      druid. */
  predicate SelfReferencing(h: Henge, db: Db, druid: string)
  {
    && druid != ""
    && druid in db && ItemDelim !in db[druid] && AttrDelim in db[druid]
    && druid + ItemTypeSuffix in db && db[druid + ItemTypeSuffix] in h.schemas
    && var schema := h.schemas[db[druid + ItemTypeSuffix]];
       && schema.Obj? && schema.recursive.Some? && |schema.recursive.value| > 0
       && var item := Zip(Names(schema.props), Split(db[druid], AttrDelim));
          && schema.recursive.value[0] in item
          && item[schema.recursive.value[0]] == druid
  }

  /** Because the limit is not lowered for object references, a record that
      refers to itself is retrieved without end whatever the limit above the
      floor: every depth bound is exhausted. */
  lemma {:induction false} RetrieveSelfReference(h: Henge, rev: Revision, db: Db, druid: string, reclimit: Option<int>,
                                                 raw: bool, fuel: nat)
    requires SelfReferencing(h, db, druid) && !AtFloor(rev, reclimit)
    ensures Retrieve(h, rev, db, druid, reclimit, raw, fuel) == Failure(OutOfFuel)
  {
    var schema := h.schemas[db[druid + ItemTypeSuffix]];
    var item := StrMap(Zip(Names(schema.props), Split(db[druid], AttrDelim)));
    var a := schema.recursive.value[0];
    assert a in item && item[a] == VStr(druid) && Truthy(item[a]);
    if fuel > 0 {
      RetrieveSelfReference(h, rev, db, druid, reclimit, raw, fuel - 1);
    }
    assert ExpandAttrs(h, rev, db, schema.recursive.value, item, reclimit, raw, fuel) == Failure(OutOfFuel);
  }

  /** A henge with one object type, "node", of two string properties
      "next" and "label", whose `recursive` list names "next". */
  function NodeHenge(): Henge
  {
    Henge(map["node" := Obj([Prop("next", StringPlaceholder), Prop("label", StringPlaceholder)],
                            None, Some(["next"]), None)],
          s => s, (j, sc) => true, j => "")
  }

  /** A concrete self-referencing record: "d" stores "d\x1ex" as a node,
      so its "next" attribute names "d" itself. */
  function SelfReferenceDb(): Db
  {
    map["d" := "d" + [AttrDelim] + "x", "d" + ItemTypeSuffix := "node"]
  }

  lemma SelfReferenceExample(rev: Revision, fuel: nat)
    ensures Retrieve(NodeHenge(), rev, SelfReferenceDb(), "d", Some(5), false, fuel) == Failure(OutOfFuel)
  {
    SplitPrefix("d", "x", AttrDelim);
    SplitWithout("x", AttrDelim);
    assert Split("d" + [AttrDelim] + "x", AttrDelim) == ["d", "x"];
    assert SelfReferencing(NodeHenge(), SelfReferenceDb(), "d");
    RetrieveSelfReference(NodeHenge(), rev, SelfReferenceDb(), "d", Some(5), false, fuel);
  }

  /** The part of the database a record's own reading needs: its payload
      and its `_item_type` slot. */
  function Own(db: Db, druid: string): (r: Db)
    ensures forall k :: k in r <==> k in db && (k == druid || k == druid + ItemTypeSuffix)
  {
    map k | k in db && (k == druid || k == druid + ItemTypeSuffix) :: db[k]
  }

  /** The recursion-limit floor, under the intended stop test: at any limit
      at or below 0, `retrieve` reads nothing but the druid's own two keys
      and makes no nested retrieval (it needs no depth at all), for a
      collection as for a single record. */
  lemma RetrieveFloor(h: Henge, db: Db, druid: string, n: int, raw: bool, fuel: nat)
    requires n <= 0
    ensures Retrieve(h, Intended, db, druid, Some(n), raw, fuel)
         == Retrieve(h, Intended, Own(db, druid), druid, Some(n), raw, 0)
  {
    var own := Own(db, druid);
    if druid in db {
      var s := db[druid];
      assert druid in own && own[druid] == s;
      if ItemDelim !in s {
        ProcessItemFloor(h, db, druid, s, n, raw, fuel);
        assert Retrieve(h, Intended, db, druid, Some(n), raw, fuel) == ProcessItem(h, Intended, db, druid, s, Some(n), raw, fuel);
        assert Retrieve(h, Intended, own, druid, Some(n), raw, 0) == ProcessItem(h, Intended, own, druid, s, Some(n), raw, 0);
      } else {
        assert Decrement(Some(n)) == Some(n - 1);
        ProcessPiecesFloor(h, db, druid, Split(s, ItemDelim), n - 1, raw, fuel);
      }
    } else {
      assert druid !in own;
    }
  }

  /** One piece at the intended floor: only the `_item_type` slot is read. */
  lemma ProcessItemFloor(h: Henge, db: Db, druid: string, s: string, n: int, raw: bool, fuel: nat)
    requires n <= 0
    ensures ProcessItem(h, Intended, db, druid, s, Some(n), raw, fuel)
         == ProcessItem(h, Intended, Own(db, druid), druid, s, Some(n), raw, 0)
  {
    if druid + ItemTypeSuffix in db {
      assert Own(db, druid)[druid + ItemTypeSuffix] == db[druid + ItemTypeSuffix];
    }
  }

  /** Every piece of a collection at the intended floor. */
  lemma {:induction false} ProcessPiecesFloor(h: Henge, db: Db, druid: string, pieces: seq<string>, n: int,
                                              raw: bool, fuel: nat)
    requires n <= 0
    ensures ProcessPieces(h, Intended, db, druid, pieces, Some(n), raw, fuel)
         == ProcessPieces(h, Intended, Own(db, druid), druid, pieces, Some(n), raw, 0)
    decreases |pieces|
  {
    if |pieces| > 0 {
      ProcessItemFloor(h, db, druid, pieces[0], n, raw, fuel);
      ProcessPiecesFloor(h, db, druid, pieces[1..], n, raw, fuel);
    }
  }

  /** A collection "c" of two copies of a "node" record whose `next` names
      the plain record "d". */
  function CollectionDb(): Db
  {
    map["c" := CollectionPiece() + [ItemDelim] + CollectionPiece(), "c" + ItemTypeSuffix := "node",
        "d" := "plain", "d" + ItemTypeSuffix := "node"]
  }

  function CollectionPiece(): string
  {
    "d" + [AttrDelim] + "x"
  }

  /** How the example's payloads split, and what its database holds. */
  lemma CollectionSplits()
    ensures var db := CollectionDb();
      && "c" in db && "c" + ItemTypeSuffix in db && db["c" + ItemTypeSuffix] == "node"
      && "d" in db && db["d"] == "plain" && "d" + ItemTypeSuffix in db && db["d" + ItemTypeSuffix] == "node"
    ensures AttrDelim !in "plain" && ItemDelim !in "plain"
    ensures Split(CollectionPiece(), AttrDelim) == ["d", "x"]
    ensures AttrDelim in CollectionPiece() && ItemDelim !in CollectionPiece()
    ensures ItemDelim in CollectionDb()["c"]
    ensures Split(CollectionDb()["c"], ItemDelim) == [CollectionPiece(), CollectionPiece()]
  {
    var piece := CollectionPiece();
    SplitPrefix("d", "x", AttrDelim);
    SplitWithout("x", AttrDelim);
    assert piece[1] == AttrDelim;
    SplitPrefix(piece, piece, ItemDelim);
    SplitWithout(piece, ItemDelim);
    assert CollectionDb()["c"][|piece|] == ItemDelim;
  }

  /** The example's record zipped with the "node" property names. */
  lemma CollectionItem()
    ensures Names(NodeHenge().schemas["node"].props) == ["next", "label"]
    ensures StrMap(Zip(["next", "label"], ["d", "x"])) == map["next" := VStr("d"), "label" := VStr("x")]
  {
    assert ["next", "label"][1..] == ["label"] && ["d", "x"][1..] == ["x"];
    assert Zip(["label"], ["x"]) == map["label" := "x"] by {
      assert ["label"][1..] == [] && ["x"][1..] == [];
    }
  }

  /** The plain record "d", read at any limit: `{node: "plain"}`. */
  lemma CollectionTarget(rev: Revision, reclimit: Option<int>, fuel: nat)
    ensures Retrieve(NodeHenge(), rev, CollectionDb(), "d", reclimit, false, fuel)
         == Success(VDict(map["node" := VStr("plain")]))
  {
    CollectionSplits();
  }

  /** An object piece above the floor is its zipped dict after the loop
      over `recursive`. */
  lemma ProcessObjectAboveFloor(h: Henge, rev: Revision, db: Db, druid: string, s: string,
                                reclimit: Option<int>, raw: bool, fuel: nat)
    requires AttrDelim in s && druid + ItemTypeSuffix in db && db[druid + ItemTypeSuffix] in h.schemas
    requires h.schemas[db[druid + ItemTypeSuffix]].Obj? && h.schemas[db[druid + ItemTypeSuffix]].recursive.Some?
    requires !AtFloor(rev, reclimit)
    ensures var schema := h.schemas[db[druid + ItemTypeSuffix]];
      var e := ExpandAttrs(h, rev, db, schema.recursive.value,
                           StrMap(Zip(Names(schema.props), Split(s, AttrDelim))), reclimit, raw, fuel);
      ProcessItem(h, rev, db, druid, s, reclimit, raw, fuel)
        == if e.Success? then Success(VDict(e.value)) else Failure(e.error)
  {
  }

  /** The loop over a one-attribute `recursive` list holding a druid. */
  lemma ExpandOne(h: Henge, rev: Revision, db: Db, a: string, item: map<string, Value>,
                  reclimit: Option<int>, raw: bool, fuel: nat, v: Value)
    requires a in item && item[a].VStr? && item[a].s != ""
    requires fuel > 0 && Retrieve(h, rev, db, item[a].s, reclimit, raw, fuel - 1) == Success(v)
    ensures ExpandAttrs(h, rev, db, [a], item, reclimit, raw, fuel) == Success(item[a := v])
  {
    assert [a][1..] == [];
  }

  /** The loop over a one-attribute `recursive` list with no depth left. */
  lemma ExpandOneNoFuel(h: Henge, rev: Revision, db: Db, a: string, item: map<string, Value>,
                        reclimit: Option<int>, raw: bool)
    requires a in item && item[a].VStr? && item[a].s != ""
    ensures ExpandAttrs(h, rev, db, [a], item, reclimit, raw, 0) == Failure(OutOfFuel)
  {
  }

  /** A collection of two equal pieces is the pair of that piece's reading
      at the lowered limit. */
  lemma RetrievePair(h: Henge, rev: Revision, db: Db, druid: string, p: string,
                     reclimit: Option<int>, raw: bool, fuel: nat)
    requires druid in db && ItemDelim in db[druid] && Split(db[druid], ItemDelim) == [p, p]
    ensures var x := ProcessItem(h, rev, db, druid, p, Decrement(reclimit), raw, fuel);
      Retrieve(h, rev, db, druid, reclimit, raw, fuel)
        == if x.Success? then Success(VList([x.value, x.value])) else Failure(x.error)
  {
    var lowered := Decrement(reclimit);
    var x := ProcessItem(h, rev, db, druid, p, lowered, raw, fuel);
    assert [p, p][1..] == [p];
    assert [p][1..] == [];
    var one := ProcessPieces(h, rev, db, druid, [p], lowered, raw, fuel);
    var two := ProcessPieces(h, rev, db, druid, [p, p], lowered, raw, fuel);
    assert ProcessPieces(h, rev, db, druid, [p][1..], lowered, raw, fuel) == Success([]);
    assert ProcessPieces(h, rev, db, druid, [p, p][1..], lowered, raw, fuel) == one;
    if x.Success? {
      assert one == Success([x.value] + []);
      assert two == Success([x.value] + one.value);
      assert [x.value] + one.value == [x.value, x.value];
    } else {
      assert one == Failure(x.error);
      assert two == Failure(x.error);
    }
  }

  /** One piece of the collection, read as written with the lowered limit
      -1: `next` is replaced by the retrieval of "d". */
  lemma CollectionPieceExpands(fuel: nat)
    requires fuel > 0
    ensures ProcessItem(NodeHenge(), AsWritten, CollectionDb(), "c", CollectionPiece(), Some(-1), false, fuel)
         == Success(VDict(map["next" := VDict(map["node" := VStr("plain")]), "label" := VStr("x")]))
  {
    var h := NodeHenge();
    var db := CollectionDb();
    CollectionSplits();
    CollectionItem();
    var item := map["next" := VStr("d"), "label" := VStr("x")];
    var v := VDict(map["node" := VStr("plain")]);
    var schema := h.schemas[db["c" + ItemTypeSuffix]];
    assert schema.Obj? && schema.recursive == Some(["next"]);
    assert StrMap(Zip(Names(schema.props), Split(CollectionPiece(), AttrDelim))) == item;
    CollectionTarget(AsWritten, Some(-1), fuel - 1);
    ExpandOne(h, AsWritten, db, "next", item, Some(-1), false, fuel, v);
    ProcessObjectAboveFloor(h, AsWritten, db, "c", CollectionPiece(), Some(-1), false, fuel);
    CollectionReplaced(v);
  }

  /** Replacing `next` in the example's record. */
  lemma CollectionReplaced(v: Value)
    ensures map["next" := VStr("d"), "label" := VStr("x")]["next" := v] == map["next" := v, "label" := VStr("x")]
  {
  }

  /** The same piece at the intended floor: `next` stays the druid. */
  lemma CollectionPieceStays(fuel: nat)
    ensures ProcessItem(NodeHenge(), Intended, CollectionDb(), "c", CollectionPiece(), Some(-1), false, fuel)
         == Success(VDict(map["next" := VStr("d"), "label" := VStr("x")]))
  {
    CollectionSplits();
    CollectionItem();
    assert AtFloor(Intended, Some(-1));
  }

  /** As written, reading the collection at limit 0 still follows `next`
      into "d": each piece sees the limit -1, which is not 0. The same
      reading restricted to "c"'s own keys and given no depth fails, so the
      result depends on a nested lookup. The intended floor returns the
      pieces unexpanded. */
  lemma CollectionBelowFloor()
    ensures var piece := VDict(map["next" := VDict(map["node" := VStr("plain")]), "label" := VStr("x")]);
      Retrieve(NodeHenge(), AsWritten, CollectionDb(), "c", Some(0), false, 2)
        == Success(VList([piece, piece]))
    ensures Retrieve(NodeHenge(), AsWritten, Own(CollectionDb(), "c"), "c", Some(0), false, 0)
        == Failure(OutOfFuel)
    ensures var piece := VDict(map["next" := VStr("d"), "label" := VStr("x")]);
      Retrieve(NodeHenge(), Intended, CollectionDb(), "c", Some(0), false, 2)
        == Success(VList([piece, piece]))
  {
    CollectionSplits();
    assert Decrement(Some(0)) == Some(-1);
    CollectionPieceExpands(2);
    CollectionPieceStays(2);
    RetrievePair(NodeHenge(), AsWritten, CollectionDb(), "c", CollectionPiece(), Some(0), false, 2);
    RetrievePair(NodeHenge(), Intended, CollectionDb(), "c", CollectionPiece(), Some(0), false, 2);
    CollectionOwnFails();
  }

  /** Restricted to "c"'s own keys and given no depth, the as-written
      reading runs out at the first reference. */
  lemma CollectionOwnFails()
    ensures Retrieve(NodeHenge(), AsWritten, Own(CollectionDb(), "c"), "c", Some(0), false, 0)
        == Failure(OutOfFuel)
  {
    var h := NodeHenge();
    var own := Own(CollectionDb(), "c");
    CollectionSplits();
    CollectionItem();
    assert "c" in own && own["c"] == CollectionDb()["c"];
    assert "c" + ItemTypeSuffix in own && own["c" + ItemTypeSuffix] == "node";
    var schema := h.schemas["node"];
    assert schema.Obj? && schema.recursive == Some(["next"]);
    var item := map["next" := VStr("d"), "label" := VStr("x")];
    assert StrMap(Zip(Names(schema.props), Split(CollectionPiece(), AttrDelim))) == item;
    ExpandOneNoFuel(h, AsWritten, own, "next", item, Some(-1), false);
    ProcessObjectAboveFloor(h, AsWritten, own, "c", CollectionPiece(), Some(-1), false, 0);
    assert Decrement(Some(0)) == Some(-1);
    RetrievePair(h, AsWritten, own, "c", CollectionPiece(), Some(0), false, 0);
  }
}

=== FILE: inherent.dfy ===
/** `select_inherent_properties` (tests/interactive_tests.py): splits an
    item into the properties that take part in its digest (those the schema
    lists under `inherent`) and the remaining, external ones. */
module Inherent {
  import opened Wrappers
  import opened Values
  import opened Schemas

  /** `{"inherent": ..., "external": ...}`; `external` is None when the
      schema declares no split. */
  datatype Selection = Selection(inherent: Json, external: Option<Json>)

  /** The schema is an object with a non-empty `inherent` list. */
  predicate DeclaresSplit(schema: Schema)
  {
    schema.Obj? && schema.inherent.Some? && |schema.inherent.value| > 0
  }

  /** The split succeeds exactly when every listed key is present and listed
      once (the source's `item[k]` raises KeyError otherwise, a repeated key
      having been deleted already); the two halves then partition the item's
      keys with every value unchanged. The source deletes the inherent keys
      from the caller's dict; here `external` is a new value. */
  method SelectInherent(item: Json, schema: Schema) returns (r: Result<Selection, PyError>)
    ensures !DeclaresSplit(schema) ==> r == Success(Selection(item, None))
    ensures DeclaresSplit(schema) && !item.JObj? ==> r == Failure(TypeError)
    ensures DeclaresSplit(schema) && item.JObj? ==>
      (r.Success? <==> Distinct(schema.inherent.value) &&
                       forall i | 0 <= i < |schema.inherent.value| :: schema.inherent.value[i] in item.fields)
    ensures DeclaresSplit(schema) && item.JObj? && r.Failure? ==>
      r.error.KeyError? && r.error.key in schema.inherent.value
    ensures DeclaresSplit(schema) && r.Success? ==>
      && item.JObj?
      && r.value.inherent.JObj? && r.value.external.Some? && r.value.external.value.JObj?
      && var inh := r.value.inherent.fields;
         var ext := r.value.external.value.fields;
         && (forall k :: k in inh <==> k in schema.inherent.value)
         && inh.Keys !! ext.Keys
         && inh.Keys + ext.Keys == item.fields.Keys
         && (forall k | k in inh :: inh[k] == item.fields[k])
         && (forall k | k in ext :: ext[k] == item.fields[k])
  {
    if !DeclaresSplit(schema) {
      return Success(Selection(item, None));
    }
    if !item.JObj? {
      return Failure(TypeError);
    }
    var ks := schema.inherent.value;
    var fields := item.fields;
    var inh: map<string, Json> := map[];
    var rest := fields;
    var i := 0;
    while i < |ks|
      invariant 0 <= i <= |ks|
      invariant Distinct(ks[..i])
      invariant forall j | 0 <= j < i :: ks[j] in fields
      invariant forall k :: k in inh <==> k in ks[..i]
      invariant rest == fields - inh.Keys
      invariant inh.Keys <= fields.Keys
      invariant forall k | k in inh :: inh[k] == fields[k]
    {
      var k := ks[i];
      if k !in rest {
        assert k !in fields || k in ks[..i];
        return Failure(KeyError(k));
      }
      inh := inh[k := rest[k]];
      rest := rest - {k};
      assert ks[..i + 1] == ks[..i] + [k];
      i := i + 1;
    }
    assert ks[..i] == ks;
    return Success(Selection(JObj(inh), Some(JObj(rest))));
  }
}

=== FILE: legacy.dfy ===
/** The earlier revisions kept in build/lib/henge/deprecated.py: the
    `build_attr_string` of `_insert_flat` with its "flexible" (sorted
    key/value pairs) and "fixed" (values in schema order) encodings, and the
    `retrieveOld` and `retrieve2` readers, which raise `NotFoundException`
    and lower `reclimit` by one per level. Both readers call
    `self.retrieve`; here each calls itself. */
module Legacy {
  import opened Wrappers
  import opened Delimited
  import opened Values
  import opened Schemas
  import HengeStore

  /** The part of a Henge the legacy readers consult: the local database
      (holding the `_item_type` slots), the schemas, `self.henges` (item type
      -> the database of the henge that stores that type) and
      `self.flexible_digests`. */
  datatype Federation = Federation(
    local: HengeStore.Db,
    schemas: Registry,
    henges: map<string, HengeStore.Db>,
    flexible: bool)

  /** The names that are keys of the item, in their original order. */
  function Filter(names: seq<string>, keys: set<string>): (r: seq<string>)
    ensures forall x :: x in r <==> x in names && x in keys
  {
    if |names| == 0 then []
    else (if names[0] in keys then [names[0]] else []) + Filter(names[1..], keys)
  }

  /** `keys_to_include`: the item's keys that the schema declares, sorted. */
  function IncludedKeys(fields: map<string, Json>, props: seq<Prop>): (r: seq<string>)
    ensures StrictlySorted(r)
    ensures forall k :: k in r <==> k in fields && k in Names(props)
  {
    SortStrings(Filter(Names(props), fields.Keys))
  }

  /** The keys and values alternated, each key followed by its value. */
  function Interleave(ks: seq<string>, vs: seq<string>): (r: seq<string>)
    requires |ks| == |vs|
    ensures |r| == 2 * |ks|
    ensures Evens(r) == ks && Odds(r) == vs
  {
    if |ks| == 0 then []
    else
      var r := [ks[0], vs[0]] + Interleave(ks[1..], vs[1..]);
      assert r[2..] == Interleave(ks[1..], vs[1..]);
      assert ks == [ks[0]] + ks[1..] && vs == [vs[0]] + vs[1..];
      r
  }

  /** Each key joined to its value by `\x1e`, one string per pair. */
  function Pairs(ks: seq<string>, vs: seq<string>): (r: seq<string>)
    requires |ks| == |vs|
    ensures |r| == |ks|
    ensures forall i | 0 <= i < |ks| :: r[i] == Join([ks[i], vs[i]], AttrDelim)
  {
    seq(|ks|, i requires 0 <= i < |ks| => Join([ks[i], vs[i]], AttrDelim))
  }

  /** Flexible object encoding: `k\x1ev` for each included key, joined by
      `\x1e`. */
  function FlexibleString(fields: map<string, Json>, props: seq<Prop>, repr: Json -> string): string
  {
    var keys := IncludedKeys(fields, props);
    Join(Pairs(keys, SafeStrs(JObj(fields), keys, repr)), AttrDelim)
  }

  /** Fixed object encoding: one field per schema property, in order. */
  function FixedString(item: Json, props: seq<Prop>, repr: Json -> string): string
  {
    Join(SafeStrs(item, Names(props), repr), AttrDelim)
  }

  /** The items `_insert_flat`'s `build_attr_string` turns into a string:
      a string for a primitive schema; any item for a fixed object schema
      and a dict for a flexible one; for an array schema, a list whose
      elements (or a string whose characters) are encodable against the
      items schema. */
  predicate LegacyEncodable(item: Json, schema: Schema, flexible: bool)
    decreases schema
  {
    match schema
    case Prim(_, _, _) => item.JStr?
    case Obj(_, _, _, _) => !flexible || item.JObj?
    case Arr(items, _, _) =>
      match item
      case JArr(xs) => forall i | 0 <= i < |xs| :: LegacyEncodable(xs[i], items, flexible)
      case JStr(str) => forall i | 0 <= i < |str| :: LegacyEncodable(JStr([str[i]]), items, flexible)
      case _ => false
  }

  /** `build_attr_string(item, schema)` of `_insert_flat`. A primitive item
      is returned as it is, which only works out for a string (anything else
      fails once it is joined or digested). It succeeds exactly on the
      encodable items. */
  function LegacyEncode(item: Json, schema: Schema, flexible: bool, repr: Json -> string): (r: Result<string, PyError>)
    decreases schema, 0
    ensures r.Success? <==> LegacyEncodable(item, schema, flexible)
    ensures r.Failure? ==> r.error == TypeError || r.error == AttributeError
  {
    match schema
    case Arr(items, _, _) =>
      var elems :- HengeStore.Iterate(item);
      var parts :- LegacyEncodeAll(elems, items, flexible, repr);
      Success(Join(parts, ItemDelim))
    case Obj(props, _, _, _) =>
      if !flexible then Success(FixedString(item, props, repr))
      else if !item.JObj? then Failure(AttributeError)   // item.keys()
      else Success(FlexibleString(item.fields, props, repr))
    case Prim(_, _, _) =>
      if item.JStr? then Success(item.s) else Failure(TypeError)
  }

  function LegacyEncodeAll(xs: seq<Json>, items: Schema, flexible: bool, repr: Json -> string): (r: Result<seq<string>, PyError>)
    decreases items, |xs| + 1
    ensures r.Success? <==> forall i | 0 <= i < |xs| :: LegacyEncode(xs[i], items, flexible, repr).Success?
    ensures r.Success? ==> (|r.value| == |xs| &&
      forall i | 0 <= i < |xs| :: r.value[i] == LegacyEncode(xs[i], items, flexible, repr).value)
    ensures r.Failure? ==> r.error == TypeError || r.error == AttributeError
  {
    if |xs| == 0 then Success([])
    else
      var first :- LegacyEncode(xs[0], items, flexible, repr);
      var rest :- LegacyEncodeAll(xs[1..], items, flexible, repr);
      assert forall i | 1 <= i < |xs| :: xs[i] == xs[1..][i - 1];
      Success([first] + rest)
  }

  /** The object decoding of both readers: evens as keys and odds as values
      (flexible), or the schema's property names zipped with the fields. */
  function DecodeObject(s: string, props: seq<Prop>, flexible: bool): map<string, string>
  {
    var parts := Split(s, AttrDelim);
    if flexible then Zip(Evens(parts), Odds(parts)) else Zip(Names(props), parts)
  }

  lemma {:induction false} JoinPairs(ks: seq<string>, vs: seq<string>)
    requires |ks| == |vs|
    ensures Join(Pairs(ks, vs), AttrDelim) == Join(Interleave(ks, vs), AttrDelim)
  {
    if |ks| == 1 {
      assert Join([ks[0], vs[0]], AttrDelim) == ks[0] + [AttrDelim] + vs[0];
      assert Interleave(ks, vs) == [ks[0], vs[0]];
    } else if |ks| > 1 {
      assert Pairs(ks, vs)[1..] == Pairs(ks[1..], vs[1..]);
      JoinPairs(ks[1..], vs[1..]);
      var rest := Interleave(ks[1..], vs[1..]);
      assert Interleave(ks, vs) == [ks[0]] + ([vs[0]] + rest);
      assert ([vs[0]] + rest)[1..] == rest;
      assert Join([ks[0], vs[0]], AttrDelim) == ks[0] + [AttrDelim] + vs[0];
    }
  }

  lemma {:induction false} InterleaveNoneContain(ks: seq<string>, vs: seq<string>, d: char)
    requires |ks| == |vs|
    requires NoneContain(ks, d) && NoneContain(vs, d)
    ensures NoneContain(Interleave(ks, vs), d)
  {
    if |ks| > 0 {
      InterleaveNoneContain(ks[1..], vs[1..], d);
      var r := Interleave(ks, vs);
      assert r == [ks[0], vs[0]] + Interleave(ks[1..], vs[1..]);
    }
  }

  /** Flexible round trip: decoding the evens as keys and the odds as values
      gives `str(item[k])` for exactly the keys both the item and the schema
      have, provided no such key or value holds `\x1e`. */
  lemma FlexibleFieldsFree(fields: map<string, Json>, props: seq<Prop>, repr: Json -> string)
    requires forall k | k in fields && k in Names(props) ::
      AttrDelim !in k && AttrDelim !in ToStr(fields[k], repr)
    ensures NoneContain(IncludedKeys(fields, props), AttrDelim)
    ensures NoneContain(SafeStrs(JObj(fields), IncludedKeys(fields, props), repr), AttrDelim)
  {
    var keys := IncludedKeys(fields, props);
    var vals := SafeStrs(JObj(fields), keys, repr);
    forall i | 0 <= i < |keys| ensures AttrDelim !in keys[i] && AttrDelim !in vals[i] {
      assert keys[i] in keys;
    }
  }

  /** The flexible encoding splits into the alternating keys and values. */
  lemma FlexibleDecodesToZip(fields: map<string, Json>, props: seq<Prop>, repr: Json -> string)
    requires forall k | k in fields && k in Names(props) ::
      AttrDelim !in k && AttrDelim !in ToStr(fields[k], repr)
    ensures var keys := IncludedKeys(fields, props);
      DecodeObject(FlexibleString(fields, props, repr), props, true) == Zip(keys, SafeStrs(JObj(fields), keys, repr))
  {
    var keys := IncludedKeys(fields, props);
    var vals := SafeStrs(JObj(fields), keys, repr);
    var flat := Interleave(keys, vals);
    JoinPairs(keys, vals);
    if |keys| > 0 {
      FlexibleFieldsFree(fields, props, repr);
      InterleaveNoneContain(keys, vals, AttrDelim);
      SplitJoin(flat, AttrDelim);
    }
  }

  /** Flexible round trip: decoding the evens as keys and the odds as values
      gives `str(item[k])` for exactly the keys both the item and the schema
      have, provided no such key or value holds `\x1e`. */
  lemma FlexibleRoundTrip(fields: map<string, Json>, props: seq<Prop>, repr: Json -> string)
    requires forall k | k in fields && k in Names(props) ::
      AttrDelim !in k && AttrDelim !in ToStr(fields[k], repr)
    ensures DecodeObject(FlexibleString(fields, props, repr), props, true)
         == map k | k in fields && k in Names(props) :: ToStr(fields[k], repr)
  {
    var keys := IncludedKeys(fields, props);
    var vals := SafeStrs(JObj(fields), keys, repr);
    FlexibleDecodesToZip(fields, props, repr);
    var f := k => if k in fields then ToStr(fields[k], repr) else "";
    ZipByName(keys, vals, f);
  }

  /** Fixed round trip: zipping the schema's property names with the fields
      gives `str(item[k])` (or "") per property, provided no field holds
      `\x1e`. */
  lemma FixedRoundTrip(item: Json, props: seq<Prop>, repr: Json -> string)
    requires forall n | n in Names(props) :: AttrDelim !in SafeStr(item, n, repr)
    ensures DecodeObject(FixedString(item, props, repr), props, false)
         == map n | n in Names(props) :: SafeStr(item, n, repr)
  {
    var names := Names(props);
    var fields := SafeStrs(item, names, repr);
    if |props| > 0 {
      assert NoneContain(fields, AttrDelim) by {
        forall i | 0 <= i < |fields| ensures AttrDelim !in fields[i] {
          assert names[i] in names;
        }
      }
      SplitJoin(fields, AttrDelim);
    }
    ZipByName(names, fields, n => SafeStr(item, n, repr));
  }

  /** Schemas the henge.py encoder can encode: objects, and arrays of them. */
  predicate EncodableByHenge(s: Schema)
  {
    match s
    case Prim(_, _, _) => false
    case Obj(_, _, _, _) => true
    case Arr(items, _, _) => EncodableByHenge(items)
  }

  /** The fixed encoding is the one henge.py's `insert` uses, for every schema
      henge.py can encode. */
  lemma {:induction false} FixedMatchesHengeEncoding(item: Json, s: Schema, repr: Json -> string)
    requires EncodableByHenge(s)
    ensures LegacyEncode(item, s, false, repr) == HengeStore.Encode(item, s, repr)
    decreases s, 0
  {
    match s
    case Obj(_, _, _, _) =>
    case Arr(items, _, _) =>
      var elems := HengeStore.Iterate(item);
      if elems.Success? {
        FixedMatchesHengeEncodingAll(elems.value, items, repr);
      }
  }

  lemma {:induction false} FixedMatchesHengeEncodingAll(xs: seq<Json>, items: Schema, repr: Json -> string)
    requires EncodableByHenge(items)
    ensures LegacyEncodeAll(xs, items, false, repr) == HengeStore.EncodeAll(xs, items, repr)
    decreases items, |xs| + 1
  {
    if |xs| > 0 {
      FixedMatchesHengeEncoding(xs[0], items, repr);
      FixedMatchesHengeEncodingAll(xs[1..], items, repr);
    }
  }

  /** Schemas in which no object node is reached by encoding. */
  predicate ObjectFree(s: Schema)
  {
    match s
    case Prim(_, _, _) => true
    case Obj(_, _, _, _) => false
    case Arr(items, _, _) => ObjectFree(items)
  }

  /** The two modes differ only in how objects are encoded: arrays are
      tab-joined the same way, so without objects the modes agree. */
  lemma {:induction false} ModesAgreeWithoutObjects(item: Json, s: Schema, repr: Json -> string)
    requires ObjectFree(s)
    ensures LegacyEncode(item, s, true, repr) == LegacyEncode(item, s, false, repr)
    decreases s, 0
  {
    match s
    case Prim(_, _, _) =>
    case Arr(items, _, _) =>
      var elems := HengeStore.Iterate(item);
      if elems.Success? {
        ModesAgreeWithoutObjectsAll(elems.value, items, repr);
      }
  }

  lemma {:induction false} ModesAgreeWithoutObjectsAll(xs: seq<Json>, items: Schema, repr: Json -> string)
    requires ObjectFree(items)
    ensures LegacyEncodeAll(xs, items, true, repr) == LegacyEncodeAll(xs, items, false, repr)
    decreases items, |xs| + 1
  {
    if |xs| > 0 {
      ModesAgreeWithoutObjects(xs[0], items, repr);
      ModesAgreeWithoutObjectsAll(xs[1..], items, repr);
    }
  }

  /** `self.lookup(druid, item_type)` is not part of this model; it is taken
      to follow retrieve2's chain: the henge of the item type, then its
      database, raising NotFoundException when either is missing. */
  function Lookup(f: Federation, druid: string, itemType: string): (r: Result<string, PyError>)
    ensures r.Success? <==> itemType in f.henges && druid in f.henges[itemType]
    ensures r.Success? ==> r.value == f.henges[itemType][druid]
    ensures r.Failure? ==> r.error == NotFoundException(druid)
  {
    if itemType !in f.henges then Failure(NotFoundException(druid))
    else if druid !in f.henges[itemType] then Failure(NotFoundException(druid))
    else Success(f.henges[itemType][druid])
  }

  /** `retrieveOld(druid, reclimit, raw)`. `fuel` bounds the depth of nested
      calls; the primitive-reference branch calls itself on the same druid,
      which never ends without an integer `reclimit`. The corrected reader
      never raises UnboundLocalError, and a result has the shape of the
      druid's schema: a list for an array, a dict for an object, a string
      for a primitive (a primitive reference ends in the same druid's
      stored string). */
  function RetrieveOld(f: Federation, rev: Revision, druid: string, reclimit: Option<int>, raw: bool, fuel: nat)
    : (r: Result<Value, PyError>)
    decreases fuel, 1, 0
    ensures rev == Intended && r.Failure? ==> r.error != UnboundLocalError
    ensures r.Success? ==>
      && druid + HengeStore.ItemTypeSuffix in f.local
      && f.local[druid + HengeStore.ItemTypeSuffix] in f.schemas
      && var schema := f.schemas[f.local[druid + HengeStore.ItemTypeSuffix]];
         && (schema.Arr? ==> r.value.VList?)
         && (schema.Obj? ==> r.value.VDict?)
         && (schema.Prim? ==> r.value.VStr?)
  {
    if druid + HengeStore.ItemTypeSuffix !in f.local then Failure(NotFoundException(druid))
    else
      var itemType := f.local[druid + HengeStore.ItemTypeSuffix];
      if itemType !in f.schemas then Failure(KeyError(itemType))
      else
        match f.schemas[itemType]
        case Arr(items, _, _) =>
          var s :- Lookup(f, druid, itemType);
          var parts := Split(s, ItemDelim);
          if reclimit == Some(0) then Success(VList(Strs(parts)))
          else if items.hengeClass.Some? then
            var xs :- RetrieveAllOld(f, rev, parts, HengeStore.Decrement(reclimit), fuel);
            Success(VList(xs))
          else Success(VList(Strs(parts)))
        case Obj(props, _, rec, _) =>
          var s :- Lookup(f, druid, itemType);
          var item := StrMap(DecodeObject(s, props, f.flexible));
          if rec.None? || reclimit == Some(0) then Success(VDict(item))
          else
            var expanded :- ExpandOld(f, rev, rec.value, item, HengeStore.Decrement(reclimit), raw, fuel);
            Success(VDict(expanded))
        case Prim(_, hc, _) =>
          if hc.Some? && hc.value !in f.schemas then Failure(KeyError(hc.value))
          else if hc.Some? && Composite(f.schemas[hc.value]) then
            if reclimit == Some(0) then
              // as written, the debug call reads `string` before it is assigned
              if rev == AsWritten then Failure(UnboundLocalError)
              else
                var s :- Lookup(f, druid, itemType);
                Success(VStr(s))
            else if fuel == 0 then Failure(OutOfFuel)
            else RetrieveOld(f, rev, druid, HengeStore.Decrement(reclimit), raw, fuel - 1)
          else
            var s :- Lookup(f, druid, itemType);
            Success(VStr(s))
  }

  /** Retrieves each digest of an array record in order with the given
      limit; `raw` is not passed on, so it is False. */
  function RetrieveAllOld(f: Federation, rev: Revision, parts: seq<string>, reclimit: Option<int>, fuel: nat)
    : (r: Result<seq<Value>, PyError>)
    decreases fuel, 0, |parts|
    ensures r.Success? ==> |r.value| == |parts|
    ensures r.Success? ==>
      forall i | 0 <= i < |parts| :: fuel > 0 && RetrieveOld(f, rev, parts[i], reclimit, false, fuel - 1) == Success(r.value[i])
    ensures rev == Intended && r.Failure? ==> r.error != UnboundLocalError
  {
    if |parts| == 0 then Success([])
    else if fuel == 0 then Failure(OutOfFuel)
    else
      var first :- RetrieveOld(f, rev, parts[0], reclimit, false, fuel - 1);
      var rest :- RetrieveAllOld(f, rev, parts[1..], reclimit, fuel);
      Success([first] + rest)
  }

  /** retrieveOld's loop over `schema['recursive']`: a present, non-empty
      attribute is replaced by the retrieval of the druid it holds. It keeps
      the dict's keys and leaves unlisted attributes as they were. */
  function ExpandOld(f: Federation, rev: Revision, attrs: seq<string>, item: map<string, Value>,
                     reclimit: Option<int>, raw: bool, fuel: nat): (r: Result<map<string, Value>, PyError>)
    decreases fuel, 0, |attrs|
    ensures r.Success? ==> r.value.Keys == item.Keys
    ensures r.Success? ==> forall k | k in item && k !in attrs :: r.value[k] == item[k]
    ensures rev == Intended && r.Failure? ==> r.error != UnboundLocalError
  {
    if |attrs| == 0 then Success(item)
    else
      var a := attrs[0];
      assert forall k | k in attrs[1..] :: k in attrs;
      if a !in item || item[a] == VStr("") then ExpandOld(f, rev, attrs[1..], item, reclimit, raw, fuel)
      // a list or dict left by an earlier replacement reaches `druid +
      // ITEM_TYPE`, whose TypeError the bare `except:` turns into
      // NotFoundException(druid)
      else if !item[a].VStr? then Failure(NotFoundValue(item[a]))
      else if fuel == 0 then Failure(OutOfFuel)
      else
        var v :- RetrieveOld(f, rev, item[a].s, reclimit, raw, fuel - 1);
        ExpandOld(f, rev, attrs[1..], item[a := v], reclimit, raw, fuel)
  }

  /** `retrieve2(druid, reclimit, raw)`: three lookups, each raising
      NotFoundException, then `reconstruct_item`. It never raises
      UnboundLocalError, and it succeeds only for a druid whose type,
      henge, payload and schema are all found. */
  function Retrieve2(f: Federation, druid: string, reclimit: Option<int>, raw: bool, fuel: nat)
    : (r: Result<Value, PyError>)
    decreases fuel, 2
    ensures r.Failure? ==> r.error != UnboundLocalError
    ensures r.Success? ==>
      && druid + HengeStore.ItemTypeSuffix in f.local
      && var t := f.local[druid + HengeStore.ItemTypeSuffix];
         t in f.henges && druid in f.henges[t] && t in f.schemas
  {
    if druid + HengeStore.ItemTypeSuffix !in f.local then Failure(NotFoundException(druid))
    else
      var itemType := f.local[druid + HengeStore.ItemTypeSuffix];
      if itemType !in f.henges then Failure(NotFoundException(druid))
      else if druid !in f.henges[itemType] then Failure(NotFoundException(druid))
      else if itemType !in f.schemas then Failure(KeyError(itemType))
      else Reconstruct(f, f.henges[itemType][druid], f.schemas[itemType], reclimit, raw, fuel)
  }

  /** The literal returned for arrays of referenced primitives, a branch left
      unfinished in the source. */
  const Unfinished: string := "ASDF"

  /** `reconstruct_item(string, schema, reclimit)`: an object gives a dict
      and an array a list (or the unfinished placeholder); it never raises
      UnboundLocalError. */
  function Reconstruct(f: Federation, s: string, schema: Schema, reclimit: Option<int>, raw: bool, fuel: nat)
    : (r: Result<Value, PyError>)
    decreases fuel, 1, schema, 0
    ensures r.Failure? ==> r.error != UnboundLocalError
    ensures r.Success? && schema.Obj? ==> r.value.VDict?
    ensures r.Success? && schema.Arr? ==>
      r.value == VStr(Unfinished) || (r.value.VList? && |r.value.elems| == |Split(s, ItemDelim)|)
  {
    match schema
    case Arr(items, _, _) =>
      if items.hengeClass.Some? && !Composite(items) then Success(VStr(Unfinished))
      else
        var xs :- ReconstructAll(f, Split(s, ItemDelim), items, reclimit, raw, fuel);
        Success(VList(xs))
    case Obj(props, _, rec, _) =>
      var item := StrMap(DecodeObject(s, props, f.flexible));
      if rec.None? || reclimit == Some(0) then Success(VDict(item))
      else
        var expanded :- Expand2(f, rec.value, item, HengeStore.Decrement(reclimit), raw, fuel);
        Success(VDict(expanded))
    case Prim(_, hc, _) =>
      if hc.Some? && hc.value !in f.schemas then Failure(KeyError(hc.value))
      else if hc.Some? && Composite(f.schemas[hc.value]) then
        if reclimit == Some(0) then Success(VStr(s))
        else if fuel == 0 then Failure(OutOfFuel)
        else Retrieve2(f, s, HengeStore.Decrement(reclimit), raw, fuel - 1)
      else Success(VStr(s))
  }

  /** Each tab-separated piece reconstructed against the items schema, with
      the limit unchanged. */
  function ReconstructAll(f: Federation, parts: seq<string>, items: Schema, reclimit: Option<int>, raw: bool, fuel: nat)
    : (r: Result<seq<Value>, PyError>)
    decreases fuel, 1, items, |parts| + 1
    ensures r.Success? ==> (|r.value| == |parts| &&
      forall i | 0 <= i < |parts| :: Reconstruct(f, parts[i], items, reclimit, raw, fuel) == Success(r.value[i]))
    ensures r.Failure? ==> r.error != UnboundLocalError
  {
    if |parts| == 0 then Success([])
    else
      var first :- Reconstruct(f, parts[0], items, reclimit, raw, fuel);
      var rest :- ReconstructAll(f, parts[1..], items, reclimit, raw, fuel);
      Success([first] + rest)
  }

  /** retrieve2's loop over `schema['recursive']`: a missing attribute
      raises KeyError; a truthy one is replaced by its retrieval. It
      succeeds only if every listed attribute is present, keeps the dict's
      keys and leaves unlisted attributes as they were. */
  function Expand2(f: Federation, attrs: seq<string>, item: map<string, Value>,
                   reclimit: Option<int>, raw: bool, fuel: nat): (r: Result<map<string, Value>, PyError>)
    decreases fuel, 0, |attrs|
    ensures r.Success? ==> r.value.Keys == item.Keys
    ensures r.Success? ==> forall i | 0 <= i < |attrs| :: attrs[i] in item
    ensures r.Success? ==> forall k | k in item && k !in attrs :: r.value[k] == item[k]
    ensures r.Failure? ==> r.error != UnboundLocalError
  {
    if |attrs| == 0 then Success(item)
    else
      var a := attrs[0];
      assert forall k | k in attrs[1..] :: k in attrs;
      assert forall i | 1 <= i < |attrs| :: attrs[i] == attrs[1..][i - 1];
      if a !in item then Failure(KeyError(a))
      else if !Truthy(item[a]) then Expand2(f, attrs[1..], item, reclimit, raw, fuel)
      // as in retrieveOld, the bare `except:` around `druid + ITEM_TYPE`
      // turns the TypeError into NotFoundException(druid)
      else if !item[a].VStr? then Failure(NotFoundValue(item[a]))
      else if fuel == 0 then Failure(OutOfFuel)
      else
        var v :- Retrieve2(f, item[a].s, reclimit, raw, fuel - 1);
        Expand2(f, attrs[1..], item[a := v], reclimit, raw, fuel)
  }

  /** retrieveOld raises NotFoundException when the druid's `_item_type`
      slot is missing. */
  lemma RetrieveOldMissingType(f: Federation, rev: Revision, druid: string, reclimit: Option<int>, raw: bool, fuel: nat)
    requires druid + HengeStore.ItemTypeSuffix !in f.local
    ensures RetrieveOld(f, rev, druid, reclimit, raw, fuel) == Failure(NotFoundException(druid))
  {
  }

  /** retrieve2 raises NotFoundException when the `_item_type` slot, the
      henge for the type, or the payload in that henge is missing. */
  lemma Retrieve2NotFound(f: Federation, druid: string, reclimit: Option<int>, raw: bool, fuel: nat)
    requires var key := druid + HengeStore.ItemTypeSuffix;
      || key !in f.local
      || f.local[key] !in f.henges
      || druid !in f.henges[f.local[key]]
    ensures Retrieve2(f, druid, reclimit, raw, fuel) == Failure(NotFoundException(druid))
  {
  }

  /** The stored record of a druid: its item type is known locally, its
      schema is registered and its henge holds its payload. */
  predicate Stored(f: Federation, druid: string)
  {
    var key := druid + HengeStore.ItemTypeSuffix;
    && key in f.local
    && f.local[key] in f.schemas
    && f.local[key] in f.henges
    && druid in f.henges[f.local[key]]
  }

  function TypeOf(f: Federation, druid: string): string
    requires Stored(f, druid)
  {
    f.local[druid + HengeStore.ItemTypeSuffix]
  }

  function SchemaOf(f: Federation, druid: string): Schema
    requires Stored(f, druid)
  {
    f.schemas[TypeOf(f, druid)]
  }

  function PayloadOf(f: Federation, druid: string): string
    requires Stored(f, druid)
  {
    f.henges[TypeOf(f, druid)][druid]
  }

  /** With reclimit 0 retrieveOld reads no other record: an array record is
      the raw tab-split list of digests and an object record is its decoded
      dict, references unexpanded, whatever the fuel. */
  lemma RetrieveOldAtZero(f: Federation, rev: Revision, druid: string, raw: bool, fuel: nat)
    requires Stored(f, druid) && Composite(SchemaOf(f, druid))
    ensures SchemaOf(f, druid).Arr? ==>
      RetrieveOld(f, rev, druid, Some(0), raw, fuel) == Success(VList(Strs(Split(PayloadOf(f, druid), ItemDelim))))
    ensures SchemaOf(f, druid).Obj? ==>
      RetrieveOld(f, rev, druid, Some(0), raw, fuel)
        == Success(VDict(StrMap(DecodeObject(PayloadOf(f, druid), SchemaOf(f, druid).props, f.flexible))))
  {
  }

  /** With reclimit 0 retrieve2 leaves an object's references and a
      referencing primitive unexpanded. */
  lemma Retrieve2AtZero(f: Federation, druid: string, raw: bool, fuel: nat)
    requires Stored(f, druid) && !SchemaOf(f, druid).Arr?
    requires SchemaOf(f, druid).Prim? && SchemaOf(f, druid).hengeClass.Some? ==>
      SchemaOf(f, druid).hengeClass.value in f.schemas
    ensures SchemaOf(f, druid).Obj? ==>
      Retrieve2(f, druid, Some(0), raw, fuel)
        == Success(VDict(StrMap(DecodeObject(PayloadOf(f, druid), SchemaOf(f, druid).props, f.flexible))))
    ensures SchemaOf(f, druid).Prim? ==> Retrieve2(f, druid, Some(0), raw, fuel) == Success(VStr(PayloadOf(f, druid)))
  {
  }

  /** retrieveOld's attribute loop replaces exactly the listed attributes
      that are present and non-empty, each by the retrieval of the druid it
      holds (with the limit it is given); every other attribute keeps its
      value. */
  lemma {:induction false} ExpandOldSpec(f: Federation, rev: Revision, attrs: seq<string>, item: map<string, Value>,
                                         reclimit: Option<int>, raw: bool, fuel: nat)
    requires Distinct(attrs)
    requires ExpandOld(f, rev, attrs, item, reclimit, raw, fuel).Success?
    ensures var out := ExpandOld(f, rev, attrs, item, reclimit, raw, fuel).value;
      && out.Keys == item.Keys
      && (forall k | k in item && (k !in attrs || item[k] == VStr("")) :: out[k] == item[k])
      && (forall k | k in item && k in attrs && item[k] != VStr("") ::
            item[k].VStr? && fuel > 0 && RetrieveOld(f, rev, item[k].s, reclimit, raw, fuel - 1) == Success(out[k]))
  {
    forall k | k in item
      ensures var out := ExpandOld(f, rev, attrs, item, reclimit, raw, fuel).value;
        && (k !in attrs || item[k] == VStr("") ==> out[k] == item[k])
        && (k in attrs && item[k] != VStr("") ==>
              item[k].VStr? && fuel > 0 && RetrieveOld(f, rev, item[k].s, reclimit, raw, fuel - 1) == Success(out[k]))
    {
      ExpandOldAt(f, rev, attrs, item, reclimit, raw, fuel, k);
    }
  }

  /** ExpandOldSpec for one key of the dict. */
  lemma {:induction false} ExpandOldAt(f: Federation, rev: Revision, attrs: seq<string>, item: map<string, Value>,
                                       reclimit: Option<int>, raw: bool, fuel: nat, k: string)
    requires Distinct(attrs) && k in item
    requires ExpandOld(f, rev, attrs, item, reclimit, raw, fuel).Success?
    ensures var out := ExpandOld(f, rev, attrs, item, reclimit, raw, fuel).value;
      && (k !in attrs || item[k] == VStr("") ==> out[k] == item[k])
      && (k in attrs && item[k] != VStr("") ==>
            item[k].VStr? && fuel > 0 && RetrieveOld(f, rev, item[k].s, reclimit, raw, fuel - 1) == Success(out[k]))
    decreases |attrs|
  {
    if |attrs| > 0 {
      var a := attrs[0];
      assert attrs == [a] + attrs[1..];
      assert k in attrs <==> k == a || k in attrs[1..];
      assert a !in attrs[1..];
      if a !in item || item[a] == VStr("") {
        ExpandOldAt(f, rev, attrs[1..], item, reclimit, raw, fuel, k);
      } else {
        var v := RetrieveOld(f, rev, item[a].s, reclimit, raw, fuel - 1).value;
        ExpandOldAt(f, rev, attrs[1..], item[a := v], reclimit, raw, fuel, k);
      }
    }
  }

  /** retrieve2's attribute loop: it succeeds only if every listed attribute
      is present, and then replaces exactly the truthy ones. */
  lemma {:induction false} Expand2Spec(f: Federation, attrs: seq<string>, item: map<string, Value>,
                                       reclimit: Option<int>, raw: bool, fuel: nat)
    requires Distinct(attrs)
    requires Expand2(f, attrs, item, reclimit, raw, fuel).Success?
    ensures var out := Expand2(f, attrs, item, reclimit, raw, fuel).value;
      && (forall i | 0 <= i < |attrs| :: attrs[i] in item)
      && out.Keys == item.Keys
      && (forall k | k in item && (k !in attrs || !Truthy(item[k])) :: out[k] == item[k])
      && (forall k | k in item && k in attrs && Truthy(item[k]) ::
            item[k].VStr? && fuel > 0 && Retrieve2(f, item[k].s, reclimit, raw, fuel - 1) == Success(out[k]))
  {
    forall k | k in item
      ensures var out := Expand2(f, attrs, item, reclimit, raw, fuel).value;
        && (k !in attrs || !Truthy(item[k]) ==> out[k] == item[k])
        && (k in attrs && Truthy(item[k]) ==>
              item[k].VStr? && fuel > 0 && Retrieve2(f, item[k].s, reclimit, raw, fuel - 1) == Success(out[k]))
    {
      Expand2At(f, attrs, item, reclimit, raw, fuel, k);
    }
  }

  /** Expand2Spec for one key of the dict. */
  lemma {:induction false} Expand2At(f: Federation, attrs: seq<string>, item: map<string, Value>,
                                     reclimit: Option<int>, raw: bool, fuel: nat, k: string)
    requires Distinct(attrs) && k in item
    requires Expand2(f, attrs, item, reclimit, raw, fuel).Success?
    ensures var out := Expand2(f, attrs, item, reclimit, raw, fuel).value;
      && (k !in attrs || !Truthy(item[k]) ==> out[k] == item[k])
      && (k in attrs && Truthy(item[k]) ==>
            item[k].VStr? && fuel > 0 && Retrieve2(f, item[k].s, reclimit, raw, fuel - 1) == Success(out[k]))
    decreases |attrs|
  {
    if |attrs| > 0 {
      var a := attrs[0];
      assert attrs == [a] + attrs[1..];
      assert k in attrs <==> k == a || k in attrs[1..];
      assert a !in attrs[1..];
      if !Truthy(item[a]) {
        Expand2At(f, attrs[1..], item, reclimit, raw, fuel, k);
      } else {
        var v := Retrieve2(f, item[a].s, reclimit, raw, fuel - 1).value;
        Expand2At(f, attrs[1..], item[a := v], reclimit, raw, fuel, k);
      }
    }
  }

  /** An attribute listed twice in `schema['recursive']` whose first
      replacement is a list or dict: the second pass hands that value to
      retrieveOld, which raises NotFoundException with it as the druid. */
  lemma ExpandOldRepeatedAttribute(f: Federation, rev: Revision, a: string, item: map<string, Value>,
                                   reclimit: Option<int>, raw: bool, fuel: nat, v: Value)
    requires a in item && item[a].VStr? && item[a] != VStr("")
    requires fuel > 0 && RetrieveOld(f, rev, item[a].s, reclimit, raw, fuel - 1) == Success(v)
    requires !v.VStr?
    ensures ExpandOld(f, rev, [a, a], item, reclimit, raw, fuel) == Failure(NotFoundValue(v))
  {
  }

  /** The same for retrieve2's loop, where the second pass meets a truthy
      list or dict. */
  lemma Expand2RepeatedAttribute(f: Federation, a: string, item: map<string, Value>,
                                 reclimit: Option<int>, raw: bool, fuel: nat, v: Value)
    requires a in item && item[a].VStr? && Truthy(item[a])
    requires fuel > 0 && Retrieve2(f, item[a].s, reclimit, raw, fuel - 1) == Success(v)
    requires !v.VStr? && Truthy(v)
    ensures Expand2(f, [a, a], item, reclimit, raw, fuel) == Failure(NotFoundValue(v))
  {
  }

  /** Above limit 0, an object record's references are expanded one level
      down: each listed, present, non-empty attribute becomes the retrieval
      of its druid with the limit lowered by exactly one. */
  lemma RetrieveOldObjectLevel(f: Federation, rev: Revision, druid: string, reclimit: Option<int>, raw: bool, fuel: nat)
    requires Stored(f, druid) && SchemaOf(f, druid).Obj?
    requires SchemaOf(f, druid).recursive.Some? && Distinct(SchemaOf(f, druid).recursive.value)
    requires reclimit != Some(0)
    requires RetrieveOld(f, rev, druid, reclimit, raw, fuel).Success?
    ensures var item := StrMap(DecodeObject(PayloadOf(f, druid), SchemaOf(f, druid).props, f.flexible));
      var attrs := SchemaOf(f, druid).recursive.value;
      var r := RetrieveOld(f, rev, druid, reclimit, raw, fuel).value;
      && r.VDict? && r.fields.Keys == item.Keys
      && (forall k | k in item && (k !in attrs || item[k] == VStr("")) :: r.fields[k] == item[k])
      && (forall k | k in item && k in attrs && item[k] != VStr("") ::
            item[k].VStr? && fuel > 0 &&
            RetrieveOld(f, rev, item[k].s, HengeStore.Decrement(reclimit), raw, fuel - 1) == Success(r.fields[k]))
  {
    var item := StrMap(DecodeObject(PayloadOf(f, druid), SchemaOf(f, druid).props, f.flexible));
    ExpandOldSpec(f, rev, SchemaOf(f, druid).recursive.value, item, HengeStore.Decrement(reclimit), raw, fuel);
  }

  /** Above limit 0, an array record whose items carry a `henge_class` is the
      list of its digests each retrieved with the limit lowered by one. */
  lemma RetrieveOldArrayLevel(f: Federation, rev: Revision, druid: string, reclimit: Option<int>, raw: bool, fuel: nat)
    requires Stored(f, druid) && SchemaOf(f, druid).Arr? && SchemaOf(f, druid).items.hengeClass.Some?
    requires reclimit != Some(0)
    requires RetrieveOld(f, rev, druid, reclimit, raw, fuel).Success?
    ensures var parts := Split(PayloadOf(f, druid), ItemDelim);
      var r := RetrieveOld(f, rev, druid, reclimit, raw, fuel).value;
      && r.VList? && |r.elems| == |parts| && fuel > 0
      && forall i | 0 <= i < |parts| ::
           RetrieveOld(f, rev, parts[i], HengeStore.Decrement(reclimit), false, fuel - 1) == Success(r.elems[i])
  {
  }

  /** retrieve2 above limit 0: each truthy listed attribute of an object
      record is retrieved with the limit lowered by exactly one. */
  lemma Retrieve2ObjectLevel(f: Federation, druid: string, reclimit: Option<int>, raw: bool, fuel: nat)
    requires Stored(f, druid) && SchemaOf(f, druid).Obj?
    requires SchemaOf(f, druid).recursive.Some? && Distinct(SchemaOf(f, druid).recursive.value)
    requires reclimit != Some(0)
    requires Retrieve2(f, druid, reclimit, raw, fuel).Success?
    ensures var item := StrMap(DecodeObject(PayloadOf(f, druid), SchemaOf(f, druid).props, f.flexible));
      var attrs := SchemaOf(f, druid).recursive.value;
      var r := Retrieve2(f, druid, reclimit, raw, fuel).value;
      && (forall i | 0 <= i < |attrs| :: attrs[i] in item)
      && r.VDict? && r.fields.Keys == item.Keys
      && (forall k | k in item && (k !in attrs || !Truthy(item[k])) :: r.fields[k] == item[k])
      && (forall k | k in item && k in attrs && Truthy(item[k]) ::
            item[k].VStr? && fuel > 0 &&
            Retrieve2(f, item[k].s, HengeStore.Decrement(reclimit), raw, fuel - 1) == Success(r.fields[k]))
  {
    var item := StrMap(DecodeObject(PayloadOf(f, druid), SchemaOf(f, druid).props, f.flexible));
    Expand2Spec(f, SchemaOf(f, druid).recursive.value, item, HengeStore.Decrement(reclimit), raw, fuel);
  }

  /** retrieve2 above limit 0 on a primitive whose class is an object or
      array type: the stored string is itself a druid, retrieved with the
      limit lowered by one. */
  lemma Retrieve2PrimRefLevel(f: Federation, druid: string, reclimit: Option<int>, raw: bool, fuel: nat)
    requires Stored(f, druid) && PrimRef(f, druid)
    requires reclimit != Some(0) && fuel > 0
    ensures Retrieve2(f, druid, reclimit, raw, fuel)
         == Retrieve2(f, PayloadOf(f, druid), HengeStore.Decrement(reclimit), raw, fuel - 1)
  {
  }

  /** A primitive whose `henge_class` names an object or array type. */
  predicate PrimRef(f: Federation, druid: string)
  {
    && druid + HengeStore.ItemTypeSuffix in f.local
    && f.local[druid + HengeStore.ItemTypeSuffix] in f.schemas
    && var s := f.schemas[f.local[druid + HengeStore.ItemTypeSuffix]];
       && s.Prim? && s.hengeClass.Some? && s.hengeClass.value in f.schemas
       && Composite(f.schemas[s.hengeClass.value])
  }

  /** As written, retrieveOld on a primitive reference with any limit n >= 0
      re-retrieves the same druid n times and then raises
      UnboundLocalError: the stored value is never returned. */
  lemma {:induction false} RetrieveOldPrimRefRaises(f: Federation, druid: string, n: nat, raw: bool, fuel: nat)
    requires PrimRef(f, druid) && fuel >= n
    ensures RetrieveOld(f, AsWritten, druid, Some(n), raw, fuel) == Failure(UnboundLocalError)
  {
    if n > 0 {
      RetrieveOldPrimRefRaises(f, druid, n - 1, raw, fuel - 1);
    }
  }

  /** With the branch as intended, the same call returns the stored value
      (or NotFoundException when its henge does not hold it). */
  lemma {:induction false} RetrieveOldPrimRefReturnsPayload(f: Federation, druid: string, n: nat, raw: bool, fuel: nat)
    requires PrimRef(f, druid) && fuel >= n
    ensures var t := f.local[druid + HengeStore.ItemTypeSuffix];
      RetrieveOld(f, Intended, druid, Some(n), raw, fuel)
        == if t in f.henges && druid in f.henges[t] then Success(VStr(f.henges[t][druid]))
           else Failure(NotFoundException(druid))
  {
    if n > 0 {
      RetrieveOldPrimRefReturnsPayload(f, druid, n - 1, raw, fuel - 1);
    }
  }

  /** Without a limit the primitive-reference branch never ends: whatever
      the depth bound, it is exhausted. */
  lemma {:induction false} RetrieveOldPrimRefUnlimited(f: Federation, rev: Revision, druid: string, raw: bool, fuel: nat)
    requires PrimRef(f, druid)
    ensures RetrieveOld(f, rev, druid, None, raw, fuel) == Failure(OutOfFuel)
  {
    if fuel > 0 {
      RetrieveOldPrimRefUnlimited(f, rev, druid, raw, fuel - 1);
    }
  }

  /** A concrete instance: a "ref" record pointing at the object type
      "person", read with reclimit 0. */
  function PrimRefExample(): Federation
  {
    Federation(
      map["d" + HengeStore.ItemTypeSuffix := "ref"],
      map["ref" := Prim(StringType, Some("person"), false),
          "person" := Obj([Prop("name", StringPlaceholder)], Some("person"), None, None)],
      map["ref" := map["d" := "abc"]],
      false)
  }

  lemma PrimRefExampleDiffers()
    ensures RetrieveOld(PrimRefExample(), AsWritten, "d", Some(0), false, 0) == Failure(UnboundLocalError)
    ensures RetrieveOld(PrimRefExample(), Intended, "d", Some(0), false, 0) == Success(VStr("abc"))
  {
    var f := PrimRefExample();
    assert PrimRef(f, "d");
    RetrieveOldPrimRefRaises(f, "d", 0, false, 0);
    RetrieveOldPrimRefReturnsPayload(f, "d", 0, false, 0);
  }

  /** What reading back an object encoded in the given mode yields:
      `str(item[k])` for the keys both item and schema have (flexible), or
      `safestr(item, n)` for every schema property (fixed). */
  function Expected(item: Json, props: seq<Prop>, flexible: bool, repr: Json -> string): map<string, string>
    requires flexible ==> item.JObj?
  {
    if flexible then map k | k in item.fields && k in Names(props) :: ToStr(item.fields[k], repr)
    else map n | n in Names(props) :: SafeStr(item, n, repr)
  }

  /** The strings an object encoding joins hold no `\x1e` (and a flexible
      encoding needs a dict). */
  predicate DelimiterFree(item: Json, props: seq<Prop>, flexible: bool, repr: Json -> string)
  {
    if flexible then
      item.JObj? && forall k | k in item.fields && k in Names(props) ::
        AttrDelim !in k && AttrDelim !in ToStr(item.fields[k], repr)
    else forall n | n in Names(props) :: AttrDelim !in SafeStr(item, n, repr)
  }

  /** An object record in either mode decodes to what was encoded. */
  lemma DecodeEncodedObject(item: Json, schema: Schema, flexible: bool, repr: Json -> string)
    requires schema.Obj? && DelimiterFree(item, schema.props, flexible, repr)
    ensures LegacyEncode(item, schema, flexible, repr).Success?
    ensures DecodeObject(LegacyEncode(item, schema, flexible, repr).value, schema.props, flexible)
         == Expected(item, schema.props, flexible, repr)
  {
    if flexible {
      FlexibleRoundTrip(item.fields, schema.props, repr);
    } else {
      FixedRoundTrip(item, schema.props, repr);
    }
  }

  /** Round trip through retrieveOld: an object record stored as its legacy
      encoding comes back as the dict that was encoded, when nothing is
      expanded. */
  lemma RetrieveOldObjectRoundTrip(f: Federation, rev: Revision, druid: string, item: Json,
                                   reclimit: Option<int>, raw: bool, fuel: nat, repr: Json -> string)
    requires Stored(f, druid) && SchemaOf(f, druid).Obj?
    requires SchemaOf(f, druid).recursive.None? || reclimit == Some(0)
    requires DelimiterFree(item, SchemaOf(f, druid).props, f.flexible, repr)
    requires LegacyEncode(item, SchemaOf(f, druid), f.flexible, repr) == Success(PayloadOf(f, druid))
    ensures RetrieveOld(f, rev, druid, reclimit, raw, fuel)
         == Success(VDict(StrMap(Expected(item, SchemaOf(f, druid).props, f.flexible, repr))))
  {
    DecodeEncodedObject(item, SchemaOf(f, druid), f.flexible, repr);
  }

  /** The same round trip through retrieve2. */
  lemma Retrieve2ObjectRoundTrip(f: Federation, druid: string, item: Json,
                                 reclimit: Option<int>, raw: bool, fuel: nat, repr: Json -> string)
    requires Stored(f, druid) && SchemaOf(f, druid).Obj?
    requires SchemaOf(f, druid).recursive.None? || reclimit == Some(0)
    requires DelimiterFree(item, SchemaOf(f, druid).props, f.flexible, repr)
    requires LegacyEncode(item, SchemaOf(f, druid), f.flexible, repr) == Success(PayloadOf(f, druid))
    ensures Retrieve2(f, druid, reclimit, raw, fuel)
         == Success(VDict(StrMap(Expected(item, SchemaOf(f, druid).props, f.flexible, repr))))
  {
    DecodeEncodedObject(item, SchemaOf(f, druid), f.flexible, repr);
  }
}

=== FILE: schema_compiler.dfy ===
/** `split_schema` (docs/example.py): compiles a nested schema tree into a
    flat registry of single-level schemas keyed by `henge_class`. The model
    works on immutable values, so the source's deep copies (which leave the
    caller's schema untouched) need no counterpart. */
module SchemaCompiler {
  import opened Wrappers
  import opened Schemas

  /** Python truthiness of the optional `name` argument. */
  predicate Named(name: Option<string>)
  {
    name.Some? && name.value != ""
  }

  /** A node together with every node reachable from it through
      `properties` and `items`. */
  function Nodes(s: Schema): set<Schema>
  {
    match s
    case Prim(_, _, _) => {s}
    case Obj(ps, _, _, _) => {s} + PropNodes(ps)
    case Arr(items, _, _) => {s} + Nodes(items)
  }

  function PropNodes(ps: seq<Prop>): set<Schema>
  {
    if |ps| == 0 then {} else Nodes(ps[0].schema) + PropNodes(ps[1..])
  }

  /** Every `henge_class` value carried by a node of `nodes`. */
  function ClassesIn(nodes: set<Schema>): set<string>
  {
    set n | n in nodes && n.hengeClass.Some? :: n.hengeClass.value
  }

  function Classes(s: Schema): set<string>
  {
    ClassesIn(Nodes(s))
  }

  lemma ClassesInUnion(a: set<Schema>, b: set<Schema>)
    ensures ClassesIn(a + b) == ClassesIn(a) + ClassesIn(b)
  {
  }

  /** What a registered entry looks like: an object without `henge_class`
      whose properties are all primitive, an array without `henge_class`
      whose items are a bare string placeholder, or a primitive. */
  predicate SingleLevel(s: Schema)
  {
    match s
    case Prim(_, _, _) => true
    case Obj(ps, hc, _, _) => hc.None? && forall i | 0 <= i < |ps| :: !Composite(ps[i].schema)
    case Arr(items, hc, _) =>
      && hc.None?
      && items.Prim? && items.ptype == StringType && items.hengeClass.None?
  }

  /** The properties of the registered copy of an object node: each object-
      or array-typed property becomes `{'type': 'string'}`, the others stay. */
  function FlattenProps(ps: seq<Prop>): (r: seq<Prop>)
    ensures Names(r) == Names(ps)
    ensures forall i | 0 <= i < |ps| :: !Composite(r[i].schema)
    ensures forall i | 0 <= i < |ps| :: Composite(ps[i].schema) ==> r[i].schema == StringPlaceholder
    ensures forall i | 0 <= i < |ps| :: !Composite(ps[i].schema) ==> r[i] == ps[i]
  {
    seq(|ps|, i requires 0 <= i < |ps| =>
      if Composite(ps[i].schema) then Prop(ps[i].name, StringPlaceholder) else ps[i])
  }

  /** The copy an object node with a `henge_class` registers. */
  function ObjectCopy(s: Schema): (c: Schema)
    requires s.Obj?
    ensures c.Obj? && c.hengeClass.None?
    ensures c.recursive == s.recursive && c.inherent == s.inherent
    ensures Names(c.props) == Names(s.props)
    ensures SingleLevel(c)
  {
    Obj(FlattenProps(s.props), None, s.recursive, s.inherent)
  }

  /** The copy an array node with a `henge_class` registers. */
  function ArrayCopy(s: Schema): (c: Schema)
    requires s.Arr?
    ensures c.Arr? && c.hengeClass.None? && c.recursive == s.recursive
    ensures c.items.Prim? && c.items.ptype == StringType && c.items.hengeClass.None?
    ensures c.items.recursiveMark <==> s.recursive.Some?
    ensures SingleLevel(c)
  {
    Arr(Prim(StringType, None, s.recursive.Some?), None, s.recursive)
  }

  /** The entry a node registers under its own `henge_class`. */
  function OwnEntry(s: Schema): (e: Schema)
    ensures SingleLevel(e)
  {
    match s
    case Prim(_, _, _) => s
    case Obj(_, _, _, _) => ObjectCopy(s)
    case Arr(_, _, _) => ArrayCopy(s)
  }

  /** Every entry of the compiled registry is single level, and a named
      primitive root is registered under its name alone. */
  function SplitSchema(s: Schema, name: Option<string>): (r: Registry)
    ensures forall k | k in r :: SingleLevel(r[k])
    ensures s.Prim? && Named(name) ==> r == map[name.value := s]
  {
    match s
    case Prim(_, hc, _) =>
      if Named(name) then map[name.value := s]
      else if hc.Some? then map[hc.value := s]
      else map[]
    case Obj(ps, hc, _, _) =>
      (if hc.Some? then map[hc.value := ObjectCopy(s)] else map[]) + SplitProps(ps)
    case Arr(items, hc, _) =>
      (if hc.Some? then map[hc.value := ArrayCopy(s)] else map[]) + SplitSchema(items, None)
  }

  /** The registrations of all properties, merged in declaration order (a
      later registration overwrites an earlier one under the same key). */
  function SplitProps(ps: seq<Prop>): (r: Registry)
    ensures forall k | k in r :: SingleLevel(r[k])
  {
    if |ps| == 0 then map[] else SplitSchema(ps[0].schema, None) + SplitProps(ps[1..])
  }

  /** Compiler totality: the registry's keys are exactly the `henge_class`
      values found in the tree (so there is one entry per distinct class),
      unless the root is a primitive given a name. */
  lemma {:induction false} SplitSchemaKeys(s: Schema, name: Option<string>)
    requires !(s.Prim? && Named(name))
    ensures SplitSchema(s, name).Keys == Classes(s)
  {
    match s
    case Prim(_, _, _) =>
    case Obj(ps, _, _, _) =>
      SplitPropsKeys(ps);
      ClassesInUnion({s}, PropNodes(ps));
    case Arr(items, _, _) =>
      SplitSchemaKeys(items, None);
      ClassesInUnion({s}, Nodes(items));
  }

  lemma {:induction false} SplitPropsKeys(ps: seq<Prop>)
    ensures SplitProps(ps).Keys == ClassesIn(PropNodes(ps))
  {
    if |ps| > 0 {
      SplitSchemaKeys(ps[0].schema, None);
      SplitPropsKeys(ps[1..]);
      ClassesInUnion(Nodes(ps[0].schema), PropNodes(ps[1..]));
    }
  }

  /** Provenance: each entry is the copy registered by some node of the
      tree that carries that key as its `henge_class`. */
  ghost predicate Provenant(r: Registry, nodes: set<Schema>)
  {
    forall k | k in r :: exists n | n in nodes :: n.hengeClass == Some(k) && r[k] == OwnEntry(n)
  }

  lemma {:induction false} SplitSchemaProvenance(s: Schema, name: Option<string>)
    requires !(s.Prim? && Named(name))
    ensures Provenant(SplitSchema(s, name), Nodes(s))
  {
    var r := SplitSchema(s, name);
    match s
    case Prim(_, _, _) =>
      assert forall k | k in r :: r[k] == OwnEntry(s);
    case Obj(ps, _, _, _) =>
      var children := SplitProps(ps);
      SplitPropsProvenance(ps);
      forall k | k in r ensures exists n | n in Nodes(s) :: n.hengeClass == Some(k) && r[k] == OwnEntry(n) {
        if k in children {
          var n :| n in PropNodes(ps) && n.hengeClass == Some(k) && children[k] == OwnEntry(n);
          assert n in Nodes(s);
        } else {
          assert s in Nodes(s) && r[k] == OwnEntry(s);
        }
      }
    case Arr(items, _, _) =>
      var children := SplitSchema(items, None);
      SplitSchemaProvenance(items, None);
      forall k | k in r ensures exists n | n in Nodes(s) :: n.hengeClass == Some(k) && r[k] == OwnEntry(n) {
        if k in children {
          var n :| n in Nodes(items) && n.hengeClass == Some(k) && children[k] == OwnEntry(n);
          assert n in Nodes(s);
        } else {
          assert s in Nodes(s) && r[k] == OwnEntry(s);
        }
      }
  }

  lemma {:induction false} SplitPropsProvenance(ps: seq<Prop>)
    ensures Provenant(SplitProps(ps), PropNodes(ps))
  {
    if |ps| > 0 {
      var first := SplitSchema(ps[0].schema, None);
      var rest := SplitProps(ps[1..]);
      var r := SplitProps(ps);
      SplitSchemaProvenance(ps[0].schema, None);
      SplitPropsProvenance(ps[1..]);
      forall k | k in r ensures exists n | n in PropNodes(ps) :: n.hengeClass == Some(k) && r[k] == OwnEntry(n) {
        if k in rest {
          var n :| n in PropNodes(ps[1..]) && n.hengeClass == Some(k) && rest[k] == OwnEntry(n);
          assert n in PropNodes(ps);
        } else {
          var n :| n in Nodes(ps[0].schema) && n.hengeClass == Some(k) && first[k] == OwnEntry(n);
          assert n in PropNodes(ps);
        }
      }
    }
  }

  /** An object node with a `henge_class` H registers its flattened copy
      under H, unless a node below it also registers H, in which case that
      later registration wins. `name` plays no part for objects. */
  lemma ObjectRegistersCopy(s: Schema, name: Option<string>)
    requires s.Obj? && s.hengeClass.Some?
    ensures var r := SplitSchema(s, name); var h := s.hengeClass.value;
      && h in r
      && (h !in ClassesIn(PropNodes(s.props)) ==> r[h] == ObjectCopy(s))
      && (h in ClassesIn(PropNodes(s.props)) ==> h in SplitProps(s.props) && r[h] == SplitProps(s.props)[h])
  {
    SplitPropsKeys(s.props);
  }

  /** An array node with a `henge_class` H registers its copy (items forced
      to a string placeholder) under H, unless its items also register H. */
  lemma ArrayRegistersCopy(s: Schema, name: Option<string>)
    requires s.Arr? && s.hengeClass.Some?
    ensures var r := SplitSchema(s, name); var h := s.hengeClass.value;
      && h in r
      && (h !in Classes(s.items) ==> r[h] == ArrayCopy(s))
      && (h in Classes(s.items) ==> h in SplitSchema(s.items, None) && r[h] == SplitSchema(s.items, None)[h])
  {
    SplitSchemaKeys(s.items, None);
  }

  /** Merging is last-wins: a class registered by property i and by no later
      property keeps property i's entry. */
  lemma {:induction false} PropsLastWins(ps: seq<Prop>, i: nat, k: string)
    requires i < |ps|
    requires k in Classes(ps[i].schema)
    requires k !in ClassesIn(PropNodes(ps[i + 1..]))
    ensures k in SplitProps(ps) && k in SplitSchema(ps[i].schema, None)
    ensures SplitProps(ps)[k] == SplitSchema(ps[i].schema, None)[k]
  {
    SplitPropsKeys(ps[1..]);
    if i == 0 {
      SplitSchemaKeys(ps[0].schema, None);
    } else {
      assert ps[1..][i - 1] == ps[i];
      assert ps[1..][i - 1 + 1..] == ps[i + 1..];
      PropsLastWins(ps[1..], i - 1, k);
    }
  }
}

=== FILE: schemas.dfy ===
/** Schema nodes as henge reads them: a node's `type` picks the variant;
    `henge_class`, `recursive` and `inherent` are the optional keys the code
    looks at. */
module Schemas {
  import opened Wrappers

  /** The JSON Schema primitive type names (anything but "object"/"array"). */
  datatype PrimType = StringType | IntegerType | NumberType | BooleanType | NullType

  /** A schema node. `recursiveMark` records a `recursive` key on a primitive
      (split_schema sets it to True on an array's placeholder items);
      `recursive` on an object lists the properties holding references, and
      on an array only its presence matters. */
  datatype Schema =
    | Prim(ptype: PrimType, hengeClass: Option<string>, recursiveMark: bool)
    | Obj(props: seq<Prop>, hengeClass: Option<string>, recursive: Option<seq<string>>,
          inherent: Option<seq<string>>)
    | Arr(items: Schema, hengeClass: Option<string>, recursive: Option<seq<string>>)

  /** One entry of an object's `properties`, in declaration order. */
  datatype Prop = Prop(name: string, schema: Schema)

  /** item type name -> schema (Henge.schemas). */
  type Registry = map<string, Schema>

  /** Whether the schema is an object or an array type. */
  predicate Composite(s: Schema)
  {
    s.Obj? || s.Arr?
  }

  /** The property names in declaration order. */
  function Names(ps: seq<Prop>): (r: seq<string>)
    ensures |r| == |ps|
    ensures forall i | 0 <= i < |ps| :: r[i] == ps[i].name
  {
    seq(|ps|, i requires 0 <= i < |ps| => ps[i].name)
  }

  /** The plain string schema a flattened composite property becomes. */
  const StringPlaceholder: Schema := Prim(StringType, None, false)
}

=== FILE: values.dfy ===
/** The Python values henge handles: the JSON-like items a caller inserts,
    the values `retrieve` hands back, the exceptions the code can raise, and
    the handful of Python built-ins (`str`, truthiness, `dict(zip(..))`,
    slicing) the modelled code leans on. */
module Values {
  import opened Delimited

  /** An item as the caller passes it to `insert` (JSON-like). Python dicts
      compare without regard to key order, so a `map` stands for them.
      Floating-point numbers are not modelled. */
  datatype Json =
    | JStr(s: string)
    | JInt(i: int)
    | JBool(b: bool)
    | JNull
    | JArr(elems: seq<Json>)
    | JObj(fields: map<string, Json>)

  /** What the retrieve functions build: strings read back from the store,
      lists of them, and dicts of them. */
  datatype Value =
    | VStr(s: string)
    | VList(elems: seq<Value>)
    | VDict(fields: map<string, Value>)

  /** The exceptions the modelled code can raise. `NotFoundValue` is a
      NotFoundException raised with a list or dict in place of the druid.
      `OutOfFuel` is not a Python exception: it marks a recursion that
      exceeded the model's depth bound. */
  datatype PyError =
    | KeyError(key: string)
    | TypeError
    | AttributeError
    | UnboundLocalError
    | NotFoundException(druid: string)
    | NotFoundValue(value: Value)
    | OutOfFuel

  function DigitChar(d: nat): (c: char)
    requires d < 10
    ensures '0' <= c <= '9'
  {
    ['0', '1', '2', '3', '4', '5', '6', '7', '8', '9'][d]
  }

  /** Decimal digits of a natural number, most significant first. */
  function Digits(n: nat): (r: string)
    ensures |r| >= 1
    ensures forall i | 0 <= i < |r| :: '0' <= r[i] <= '9'
  {
    if n < 10 then [DigitChar(n)] else Digits(n / 10) + [DigitChar(n % 10)]
  }

  /** An int written out in decimal, as Python's `str` renders it. */
  function IntToDecimal(i: int): (r: string)
    ensures forall k | 0 <= k < |r| :: r[k] == '-' || '0' <= r[k] <= '9'
  {
    if i < 0 then "-" + Digits(-i) else Digits(i)
  }

  /** Python's `str(v)`. Strings, ints, booleans and None are rendered as
      Python renders them; a list or dict goes through `repr`, which stands
      for Python's container rendering and is left abstract. */
  function ToStr(v: Json, repr: Json -> string): (r: string)
    ensures v.JStr? ==> r == v.s
    ensures v.JInt? ==> AttrDelim !in r && ItemDelim !in r
  {
    match v
    case JStr(s) => s
    case JInt(i) => IntToDecimal(i)
    case JBool(b) => if b then "True" else "False"
    case JNull => "None"
    case JArr(_) => repr(v)
    case JObj(_) => repr(v)
  }

  /** `safestr(item, x)`: `str(item[x])`, or "" when the lookup fails (a
      missing key, or an item that is not a dict). */
  function SafeStr(item: Json, x: string, repr: Json -> string): (r: string)
    ensures item.JObj? && x in item.fields ==> r == ToStr(item.fields[x], repr)
    ensures !item.JObj? || x !in item.fields ==> r == ""
  {
    if item.JObj? && x in item.fields then ToStr(item.fields[x], repr) else ""
  }

  /** The `safestr` of each name, in order. */
  function SafeStrs(item: Json, names: seq<string>, repr: Json -> string): (r: seq<string>)
    ensures |r| == |names|
    ensures forall i | 0 <= i < |names| :: r[i] == SafeStr(item, names[i], repr)
  {
    seq(|names|, i requires 0 <= i < |names| => SafeStr(item, names[i], repr))
  }

  /** Which reading of a source line with a known defect a reader follows:
      the source as written, or the evidently intended one. */
  datatype Revision = AsWritten | Intended

  /** No key is listed twice. */
  predicate Distinct(ks: seq<string>)
  {
    forall i, j | 0 <= i < j < |ks| :: ks[i] != ks[j]
  }

  /** Python truthiness of a retrieved value. */
  predicate Truthy(v: Value)
  {
    match v
    case VStr(s) => |s| > 0
    case VList(xs) => |xs| > 0
    case VDict(m) => |m| > 0
  }

  /** The length of the shorter of two lists: how far `zip` pairs them. */
  function Shorter<U, V>(xs: seq<U>, ys: seq<V>): nat
  {
    if |xs| < |ys| then |xs| else |ys|
  }

  /** `dict(zip(ks, vs))`: pairs up to the shorter list, a later key
      overwriting an earlier one (ZipContents). */
  function Zip<V>(ks: seq<string>, vs: seq<V>): (r: map<string, V>)
    ensures forall k | k in r :: k in ks
  {
    if |ks| == 0 || |vs| == 0 then map[]
    else map[ks[0] := vs[0]] + Zip(ks[1..], vs[1..])
  }

  /** `dict(zip(ks, vs))` holds exactly the keys paired up to the shorter
      list, and each maps to the value paired with its last occurrence
      there. */
  lemma ZipContents<V>(ks: seq<string>, vs: seq<V>)
    ensures Zip(ks, vs).Keys == set i | 0 <= i < Shorter(ks, vs) :: ks[i]
    ensures forall i | 0 <= i < Shorter(ks, vs) && ks[i] !in ks[i + 1..Shorter(ks, vs)] ::
      Zip(ks, vs)[ks[i]] == vs[i]
  {
    ZipKeys(ks, vs);
    forall i | 0 <= i < Shorter(ks, vs) && ks[i] !in ks[i + 1..Shorter(ks, vs)]
      ensures Zip(ks, vs)[ks[i]] == vs[i]
    {
      ZipLast(ks, vs, i);
    }
  }

  lemma {:induction false} ZipKeys<V>(ks: seq<string>, vs: seq<V>)
    ensures Zip(ks, vs).Keys == set i | 0 <= i < Shorter(ks, vs) :: ks[i]
  {
    if |ks| > 0 && |vs| > 0 {
      ZipKeys(ks[1..], vs[1..]);
      var n := Shorter(ks, vs);
      assert Shorter(ks[1..], vs[1..]) == n - 1;
      var whole := set i | 0 <= i < n :: ks[i];
      var tail := set i | 0 <= i < n - 1 :: ks[1..][i];
      assert whole == {ks[0]} + tail by {
        forall k | k in whole ensures k in {ks[0]} + tail {
          var i :| 0 <= i < n && ks[i] == k;
          if i > 0 { assert ks[1..][i - 1] == k; }
        }
        forall k | k in tail ensures k in whole {
          var i :| 0 <= i < n - 1 && ks[1..][i] == k;
          assert ks[i + 1] == k;
        }
      }
    }
  }

  lemma {:induction false} ZipLast<V>(ks: seq<string>, vs: seq<V>, i: nat)
    requires i < Shorter(ks, vs) && ks[i] !in ks[i + 1..Shorter(ks, vs)]
    ensures ks[i] in Zip(ks, vs) && Zip(ks, vs)[ks[i]] == vs[i]
    decreases i
  {
    var n := Shorter(ks, vs);
    if i == 0 {
      assert ks[1..n] == ks[1..][..n - 1];
      ZipKeys(ks[1..], vs[1..]);
    } else {
      assert ks[1..][i - 1] == ks[i] && vs[1..][i - 1] == vs[i];
      assert ks[1..][i..n - 1] == ks[i + 1..n];
      ZipLast(ks[1..], vs[1..], i - 1);
    }
  }

  /** Zipping names with values that depend only on the name gives the map
      from each name to its value, whatever the repetitions among the names. */
  lemma {:induction false} ZipByName<V>(ks: seq<string>, vs: seq<V>, f: string -> V)
    requires |vs| == |ks|
    requires forall i | 0 <= i < |ks| :: vs[i] == f(ks[i])
    ensures Zip(ks, vs) == map k | k in ks :: f(k)
  {
    if |ks| > 0 {
      assert forall i | 0 <= i < |ks[1..]| :: vs[1..][i] == f(ks[1..][i]) by {
        forall i | 0 <= i < |ks[1..]| ensures vs[1..][i] == f(ks[1..][i]) {
          assert vs[1..][i] == vs[i+1];
        }
      }
      ZipByName(ks[1..], vs[1..], f);
      var tail := map k | k in ks[1..] :: f(k);
      var whole := map k | k in ks :: f(k);
      var head := map[ks[0] := f(ks[0])];
      assert Zip(ks, vs) == head + tail;
      assert forall k :: k in ks <==> k == ks[0] || k in ks[1..] by {
        assert ks == [ks[0]] + ks[1..];
      }
      assert (head + tail).Keys == whole.Keys;
      assert forall k | k in whole :: (head + tail)[k] == whole[k];
    }
  }

  /** The elements at even positions, in order. */
  function Evens<T>(xs: seq<T>): (r: seq<T>)
    ensures |r| == (|xs| + 1) / 2
    ensures forall i | 0 <= i < |r| :: r[i] == xs[2 * i]
  {
    if |xs| == 0 then [] else if |xs| == 1 then [xs[0]] else [xs[0]] + Evens(xs[2..])
  }

  /** The elements at odd positions, in order. */
  function Odds<T>(xs: seq<T>): (r: seq<T>)
    ensures |r| == |xs| / 2
    ensures forall i | 0 <= i < |r| :: r[i] == xs[2 * i + 1]
  {
    if |xs| < 2 then [] else [xs[1]] + Odds(xs[2..])
  }

  /** Every string of a list as a retrieved value. */
  function Strs(xs: seq<string>): (r: seq<Value>)
    ensures |r| == |xs|
    ensures forall i | 0 <= i < |xs| :: r[i] == VStr(xs[i])
  {
    seq(|xs|, i requires 0 <= i < |xs| => VStr(xs[i]))
  }

  /** Every value of a string map as a retrieved value. */
  function StrMap(m: map<string, string>): (r: map<string, Value>)
    ensures r.Keys == m.Keys
    ensures forall k | k in m :: r[k] == VStr(m[k])
  {
    map k | k in m :: VStr(m[k])
  }
}

=== FILE: wrappers.dfy ===
/** Option and Result, used for Python's `None` and for the exceptions the
    modelled code raises. Both work with Dafny's `:-` operator. */
module Wrappers {

  datatype Option<+T> = None | Some(value: T)

  datatype Result<+T, +E> = Success(value: T) | Failure(error: E) {

    predicate IsFailure() {
      Failure?
    }

    function PropagateFailure<U>(): Result<U, E>
      requires Failure?
    {
      Failure(error)
    }

    function Extract(): T
      requires Success?
    {
      value
    }
  }
}
